=== FILE: README.md ===
# hyprdrover restore core in Dafny

hyprdrover saves and restores Hyprland desktop sessions. A *snapshot* captures
every window (a *client*), the workspaces and the monitors through `hyprctl -j`.
It also records how each window's program was started, read from
`/proc/<pid>/cmdline` or `/proc/<pid>/exe`. The ignored classes are dropped
before the snapshot is written to `session_<timestamp>.json`.

A *restore* runs in two phases:

- Phase 1 goes through the saved windows in order. Each one claims the first
  live window of the same class, and the restore moves, floats and resizes that
  window with `hyprctl dispatch` commands. A saved window with no live match is
  launched on its saved workspace instead, and its launch is queued.
- Phase 2 runs after one wait and one fresh capture. It positions each launched
  window that has appeared, without touching any address phase 1 already
  restored.

The project models this core and proves the properties listed under "## Model"; what it does not capture is listed under "## Left out".

| file | module | models |
|---|---|---|
| `wrappers.dfy` | `Wrappers` | `Option` and `Result` |
| `split.dfy` | `Split` | `split(..).filter(non-empty)`, shared by `split_whitespace` and the cmdline split, with its round trips |
| `decimal.dfy` | `Decimal` | decimal formatting of integers in `format!` |
| `text.dfy` | `Text` | lower-casing and the code-point order that `sort_by` uses on names |
| `hypr_commands.dfy` | `HyprCommands` | the records, the dispatch command strings, `dispatch`'s tokenising, `capture_state` |
| `position.dfy` | `Position` | `restore_window_position`: the plan of commands, its effect, the stop at the first refusal |
| `restore.dfy` | `Restore` | `resolve_command`, the launch command, and `restore_session` as the `Restorer` class (`available`, `restored`, `pending`) proved equal to the fold `RestoreSpec` |
| `session.dfy` | `Session` | the ignored-class `retain` in `snapshot`, the file name in `save_to_disk`, and `list_sessions` |

The compositor is a parameter, `Restore.Compositor`. It holds the result of the
capture before phase 1, the result of the capture after the wait, and the set of
argument vectors it refuses. A dispatch succeeds exactly when its argument
vector is not in that set. The `/proc` files are a parameter too
(`HyprCommands.ProcFs`). The session directory is a parameter of the listing
(`Session.SessionDir`).

## Model

| member | source | states |
|---|---|---|
| Split.FlattenFields | src/ipc/hypr_commands.rs:167 | the words of a split, concatenated, are the input without its separators: nothing is lost or reordered |
| Split.FieldsOfJoin | src/ipc/hypr_commands.rs:167 | splitting words joined by one separator gives back exactly those words, provided each is non-empty and has no separator |
| Split.JoinFields | src/ipc/hypr_commands.rs:167 | re-joining the words with single spaces gives the input with its separator runs collapsed and its ends trimmed |
| Split.FieldsOfTerminated | src/ipc/hypr_commands.rs:138-140 | splitting NUL-terminated pieces gives back the pieces |
| Decimal.IntToString | src/ipc/hypr_commands.rs:186 | a formatted `i32` is non-empty, all digits after an optional `-`, and starts with `-` exactly when negative. It has no leading zero: a `0` first means the text is `0`, and a `-` is followed by a non-zero digit |
| Decimal.ParseIntToString | src/ipc/hypr_commands.rs:186 | the decimal text of an integer reads back as that integer |
| Decimal.IntToStringInjective | src/ipc/hypr_commands.rs:133-134 | different integers format to different text |
| Text.ToLower | src/restore/mod.rs:124 | lower-casing keeps the length and maps each character on its own, and the result has no upper-case letter |
| Text.LexLeTotal | src/state/session.rs:69 | any two names are ordered one way or the other |
| Text.LexLeAntisymmetric | src/state/session.rs:69 | names ordered both ways are equal |
| Text.LexLeTransitive | src/state/session.rs:69 | the name order is transitive |
| Text.LexLePrefix | src/state/session.rs:69 | a common prefix does not change the order of two names |
| HyprCommands.DispatchArgs | src/ipc/hypr_commands.rs:166-171 | the arguments `dispatch` sends are non-empty, free of white space, and concatenated are the command without its white space |
| HyprCommands.Render | src/ipc/hypr_commands.rs:184-209 | each builder's command (and the `togglefloating` one) ends in `address:` followed by the window's address; its full shape is proved by `RenderIsJoinedWords` |
| HyprCommands.Words | src/ipc/hypr_commands.rs:184-209 | each command is meant as at least two non-empty words, the last ending in `address:` and the window's address |
| HyprCommands.Args | src/ipc/hypr_commands.rs:166-209 | for an address without white space, what `dispatch` sends for a command is exactly its intended words |
| HyprCommands.RenderIsJoinedWords | src/ipc/hypr_commands.rs:184-209 | each command string is its intended words joined by single spaces |
| HyprCommands.RenderedArgs | src/ipc/hypr_commands.rs:166-209 | for an address without white space, tokenising each builder's command the way `dispatch` does gives exactly its intended words |
| HyprCommands.ParseCmdline | src/ipc/hypr_commands.rs:137-142 | the cmdline arguments are non-empty and NUL-free, and together they are the file's non-NUL bytes, decoded, in order |
| HyprCommands.CmdlinePath | src/ipc/hypr_commands.rs:133 | the path starts with `/proc/` and ends with `/cmdline` |
| HyprCommands.CmdlinePathNamesPid | src/ipc/hypr_commands.rs:133 | what lies between `/proc/` and `/cmdline` is exactly the decimal pid |
| HyprCommands.ExeLinkPath | src/ipc/hypr_commands.rs:134 | the path starts with `/proc/` and ends with `/exe`, and it is never the cmdline path of the same process |
| HyprCommands.ExeLinkPathNamesPid | src/ipc/hypr_commands.rs:134 | what lies between `/proc/` and `/exe` is exactly the decimal pid |
| HyprCommands.ReadArgv | src/ipc/hypr_commands.rs:137-142 | an argv is read exactly when the cmdline file is readable, and every argument in it is non-empty and NUL-free |
| HyprCommands.CmdlineRoundTrip | src/ipc/hypr_commands.rs:137-142 | reading a cmdline file of NUL-terminated arguments gives back every argument in order |
| HyprCommands.CmdlinePathInjective | src/ipc/hypr_commands.rs:133 | different processes have different cmdline paths |
| HyprCommands.CaptureLaunchInfo | src/ipc/hypr_commands.rs:132-154 | only `command` or `exe_path` changes, never both. A readable, non-empty argv sets `command` and keeps `exe_path`. Otherwise `command` is kept, and `exe_path` becomes the `exe` link target when the link is readable and is kept when it is not |
| HyprCommands.CaptureNeverSetsBoth | src/ipc/hypr_commands.rs:136-153 | a client fresh from the compositor leaves capture with at most one launch field set |
| HyprCommands.FillLaunchInfo | src/ipc/hypr_commands.rs:132-154 | in place, every client of the array keeps its place and becomes exactly what `CaptureLaunchInfo` makes of it |
| HyprCommands.CaptureState | src/ipc/hypr_commands.rs:129-161 | the first failed query (clients, then workspaces, then monitors) is the error; otherwise every client keeps its place and gains only its launch information |
| Position.PositionCommands | src/restore/position.rs:5-45 | the plan has at most four commands, all aimed at the live window's address, and none is a focus |
| Position.Run | src/restore/position.rs:11-31 | the sent commands are a prefix of the plan, all accepted; the run fails exactly when some command is refused, and then it stops at the first refused one |
| Position.RestoreWindowPosition | src/restore/position.rs:5-45 | the sent commands are a prefix of the plan's argument vectors. Positioning fails exactly when some command of the plan is refused, and then it stops at the first refused one. When nothing is refused, all of them are sent. The window then ends at its saved workspace and floating state and, for a floating saved window, at its saved position and size |
| Position.PositionReachesSaved | src/restore/position.rs:9-42 | applying the whole plan takes any live window to its saved placement |
| Position.WorkspaceMoveIff | src/restore/position.rs:10-12 | a workspace move is sent exactly when the workspaces differ, and then it comes first |
| Position.ToggleIff | src/restore/position.rs:15-39 | exactly one toggle is sent when the live and saved floating states differ, and none otherwise |
| Position.GeometryOnlyWhenFloating | src/restore/position.rs:22-31 | the exact move and resize are sent exactly when the saved window floats, with the saved position and size |
| Position.AlreadyPlacedTiledIsQuiet | src/restore/position.rs:10-42 | a tiled window already on its saved workspace needs no command |
| Position.ReapplyIsStable | src/restore/position.rs:9-42 | a window already at its saved placement gets no workspace move and no toggle, only the floating geometry again |
| Restore.ResolveCommand | src/restore/mod.rs:123-132 | the command is lower-case: the alias of the lower-cased class when the table has one, otherwise the lower-cased class itself |
| Restore.ResolveIgnoresCase | src/restore/mod.rs:123-124 | classes that differ only in case resolve to the same command |
| Restore.ResolveIdempotent | src/restore/mod.rs:125-131 | resolving a resolved command changes nothing, because no alias leads to another alias |
| Restore.LaunchCommand | src/restore/mod.rs:42-52 | the executable path when captured; otherwise the resolved initial class, or the resolved class when the initial class is empty |
| Restore.ExecRule | src/restore/mod.rs:59-62 | the rule starts with `[workspace ` and ends with ` silent] ` followed by the command |
| Restore.ExecRuleNamesWorkspace | src/restore/mod.rs:59-62 | what lies between `[workspace ` and ` silent] ` is exactly the decimal workspace id |
| Restore.ExecArgs | src/restore/mod.rs:59-68 | a launch sends two arguments after `dispatch`: `exec`, then the whole rule as one argument, built from the saved window's workspace id and its launch command |
| Restore.CapturedArgvIsNotLaunched | src/restore/mod.rs:42-52 | a window whose argv was captured is launched from its resolved class name, since the argv is never read |
| Restore.ExecRuleSplitByDispatch | src/restore/mod.rs:56-66 | tokenising `exec [workspace N silent] cmd` the way `dispatch` does would break the rule into separate words, which is why the launch bypasses it |
| Restore.FindByClass | src/restore/mod.rs:20-22 | the lowest index of a window with exactly the saved class; none exactly when no window has it |
| Restore.FindLaunched | src/restore/mod.rs:100-104 | the first new window with the saved class and workspace whose address is not restored; none exactly when there is no such window |
| Restore.RemoveAt | src/restore/mod.rs:24 | removing one window shortens the pool by one, loses only that window, and keeps the others in their order: those before it in place, those after it one step forward |
| Restore.MatchOrLaunch | src/restore/mod.rs:19-85 | one saved window in phase 1 only appends to the log and leaves the phase-2 claims alone; it can abort only when a live window of its class was found |
| Restore.MatchOrLaunchEffect | src/restore/mod.rs:19-85 | for a matched window, the accepted commands are logged; phase 1 aborts exactly when a command is refused, with that command as the error and the address left unrestored; otherwise the address is restored. For an unmatched window, phase 1 goes on, and the window is queued and its launch logged exactly when the launch is accepted |
| Restore.Phase1 | src/restore/mod.rs:18-86 | phase 1 only appends to the log and leaves the phase-2 claims alone; its invariant is `Phase1Invariant` |
| Restore.PositionLaunched | src/restore/mod.rs:98-116 | one queued window in phase 2 leaves the pool, the queue and the phase-1 claims alone, and only adds to the restored set and the log |
| Restore.PositionLaunchedEffect | src/restore/mod.rs:98-116 | without a matching new window nothing changes; with one, its accepted commands are logged and its address is restored exactly when every command was accepted |
| Restore.Phase2 | src/restore/mod.rs:97-117 | phase 2 leaves the pool, the queue and the phase-1 claims alone, and only adds to the restored set and the log; its invariant is `Phase2Invariant` |
| Restore.RestoreSpec | src/restore/mod.rs:7-121 | a failed first capture is the result; a successful restore had a first capture, and a second one too whenever launches were pending |
| Restore.RestoreAbortIsError | src/restore/mod.rs:30 | when phase 1 aborts, the restore ends with that error and the state of the abort, and phase 2 does not run |
| Restore.RestoreOutcome | src/restore/mod.rs:87-120 | when phase 1 completes, the restore succeeds at once if nothing was launched. Otherwise a failed second capture is the error, and a successful one gives success after phase 2 over its windows, whose refused positionings do not fail the restore |
| Restore.Phase1AbortStops | src/restore/mod.rs:30 | after a refused positioning aborts phase 1, the later saved windows change nothing |
| Restore.Phase1Invariant | src/restore/mod.rs:17-86 | in phase 1 the pool and the claimed windows together are the live capture. Each claim pairs windows of one class. Claims plus queued launches never outnumber the saved windows. Each queued launch was accepted. While running, the restored set is the claimed addresses |
| Restore.ClaimsDistinct | src/restore/mod.rs:11-23 | when the live addresses are distinct, no live window is claimed twice |
| Restore.Phase2Invariant | src/restore/mod.rs:89-117 | phase 2 changes only the restored set and the log. Each successfully positioned window is a new client of the saved class on the saved workspace. It was not restored in phase 1 and is not successfully positioned twice. The restored set grows by exactly those addresses. A window whose positioning was refused stays unrestored and may be sent commands again for a later queued window |
| Restore.RestoreClaimsEachAddressOnce | src/restore/mod.rs:7-121 | over both phases no live address is successfully positioned twice, and a restore that succeeds has restored exactly the addresses it successfully positioned |
| Restore.RestoreOntoItself | src/restore/mod.rs:7-121 | restoring tiled windows onto themselves pairs each window with itself, sends nothing and launches nothing |
| Restore.AcceptedLaunches | src/restore/mod.rs:70-80 | the queued windows are saved windows whose launch was accepted, no more of them than there are saved windows |
| Restore.AcceptedLaunchesAtMostOnce | src/restore/mod.rs:70-80 | as multisets, the queued windows are contained in the saved ones: each saved window is queued at most once |
| Restore.AcceptedLaunchesComplete | src/restore/mod.rs:70-80 | every saved window whose launch is accepted is queued |
| Restore.NothingLiveLaunchesAll | src/restore/mod.rs:31-84 | with no live windows, phase 1 launches every saved window in order and queues exactly the accepted launches |
| Restore.Restorer.ClaimOrLaunch | src/restore/mod.rs:17-85 | one pass of the phase-1 loop changes the restorer's state exactly as `MatchOrLaunch` does, and an error is the abort |
| Restore.Restorer.PositionOne | src/restore/mod.rs:95-116 | one pass of the phase-2 loop changes the state exactly as `PositionLaunched` does |
| Restore.Restorer.MatchAll | src/restore/mod.rs:17-86 | the phase-1 loop ends in the state `Phase1` specifies, or with its abort error |
| Restore.Restorer.PositionAll | src/restore/mod.rs:95-116 | the phase-2 loop ends in the state `Phase2` specifies |
| Restore.Restorer.RestoreSession | src/restore/mod.rs:7-121 | the restore ends in the state and with the result `RestoreSpec` specifies: capture errors, phase-1 aborts, phase 2 only when launches are pending |
| Session.Retained | src/state/session.rs:25-27 | no kept client has an ignored class, and every kept client comes from the capture |
| Session.RetainedAppend | src/state/session.rs:25-27 | filtering distributes over concatenation, so relative order is kept |
| Session.RetainedKeepsOthers | src/state/session.rs:25-27 | every client whose class is not ignored is kept |
| Session.RetainedIdempotent | src/state/session.rs:25-27 | filtering twice is filtering once |
| Session.FilteredCountIsIgnored | src/state/session.rs:24-28 | the original length minus the kept length is the number of ignored clients |
| Session.FilterIgnored | src/state/session.rs:24-28 | the in-place compaction keeps exactly the filtered clients and counts exactly the ignored ones |
| Session.Snapshot | src/state/session.rs:19-36 | a failed capture is the error; otherwise the snapshot saved is the capture without ignored windows, under the timestamped path |
| Session.SessionFileName | src/state/session.rs:45 | the name is exactly the timestamp with `session_` in front and `.json` behind |
| Session.SaveToDisk | src/state/session.rs:44-46 | the new file is `session_<timestamp>.json` directly inside the session directory |
| Session.JoinPath | src/state/session.rs:46 | an absolute name replaces the directory. A relative name follows the directory directly, or after one inserted `/` when the directory is non-empty and does not already end in one |
| Session.SessionPath | src/state/session.rs:44-46 | the path is the session directory followed by the session file name, with at most one `/` between them |
| Session.Extension | src/state/session.rs:64 | an extension is the text after a dot that is not the first character, and that text holds no dot; a name other than `..` whose last dot is not its first character has exactly the text after that dot as its extension |
| Session.SessionFileIsJson | src/state/session.rs:44-45 | every file a save writes has the extension `json` |
| Session.SessionNamesFollowTimestamps | src/state/session.rs:44-45 | for timestamps of one width, file names sort as their timestamps do |
| Session.JsonNames | src/state/session.rs:60-67 | the listing keeps only readable entries with extension `json` |
| Session.Insert | src/state/session.rs:69 | inserting into a descending list keeps it descending and adds exactly that name |
| Session.SortDescending | src/state/session.rs:69 | the sorted names are in descending order and are a permutation of the input |
| Session.FirstError | src/state/session.rs:61-62 | the first entry that failed to read; none exactly when every entry is readable |
| Session.ListSessions | src/state/session.rs:54-71 | a missing directory lists nothing, and an unreadable directory or entry is the error. Otherwise the result is the `json` entries' paths, sorted by name in descending order |
| Session.ListingIsSortedJsonFiles | src/state/session.rs:60-70 | every listed name is a `json` file, every `json` entry is listed, and the first name is the greatest |
| Session.SavedSessionIsListed | src/state/session.rs:44-70 | a file written by a save appears in the next listing of its directory |

## Left out

- Running `hyprctl` is not modelled, and neither are the JSON text of its answers (serde) or its stderr messages. A capture is given as a result, and a dispatch is judged by the compositor's set of refused argument vectors. A process that fails to start and a non-zero exit status both count as a refusal.
- `println!`, `eprintln!`, the `notify-send` notification and the two-second sleep have no effect on the state and are left out.
- `Local::now()` is left out: the timestamp is a parameter. `create_dir_all`, `fs::write` and the JSON file contents are left out too; a save returns the path and the snapshot it would write.
- The `f32` `refresh_rate` of a monitor is not kept, because floating point is outside the model.
- `get_active_workspace`, `src/restore/spawn.rs`, `src/utils/exec.rs`, `src/ipc/mod.rs` and `src/main.rs` are not part of this model. Neither are configuration loading and the test files.
- A launch-and-poll loop and a split-tree layout replay are not part of this code. The restore waits once, captures once more and positions what has appeared, and that is what is modelled.
- The restore reads the saved window's executable path under the name `exec_path`, while the record declares `exe_path`. The model reads the captured `exePath`.
- Text.ToLower: lower-cases ASCII letters only. Rust's `to_lowercase` also maps non-ASCII letters, and may change the length.
- HyprCommands.DecodeLossy: decodes each byte on its own. ASCII is kept and every other byte becomes U+FFFD, so a valid multi-byte UTF-8 character decodes to several replacement characters instead of itself.
- HyprCommands.ProcFs: the `exe` link target is given as text, which stands for `to_string_lossy` of the link.
- Session.ListSessions: entries are given as text, so a non-UTF-8 name is not modelled. Results are sorted by file name. Every listed path is in the same directory, so comparing the paths component by component comes down to comparing their names.
- Session.SortDescending: written as an insertion sort, where the program calls the library's stable sort. Names that compare equal are identical, so stability does not change the result.

=== FILE: decimal.dfy ===
/**
 * Decimal text of integers, as Rust's `{}` formatting writes an `i32`: an optional
 * minus sign followed by the digits, without leading zeros. The parser is the
 * partner that shows the text determines the number.
 */
module Decimal {
  import opened Wrappers

  predicate IsDigit(c: char) {
    '0' <= c <= '9'
  }

  predicate AllDigits(s: string) {
    forall i :: 0 <= i < |s| ==> IsDigit(s[i])
  }

  function DigitChar(d: nat): (c: char)
    requires d < 10
    ensures IsDigit(c)
  {
    (('0' as int) + d) as char
  }

  function DigitValue(c: char): (d: nat)
    requires IsDigit(c)
    ensures d < 10
  {
    (c as int) - ('0' as int)
  }

  /** The digits of `n`, most significant first. */
  function NatToString(n: nat): (s: string)
    ensures |s| > 0 && AllDigits(s)
    ensures s[0] == '0' ==> n == 0
  {
    if n < 10 then [DigitChar(n)] else NatToString(n / 10) + [DigitChar(n % 10)]
  }

  /** Rust's `{}` rendering of an integer. */
  function IntToString(i: int): (s: string)
    ensures |s| > 0
    ensures forall k :: 0 <= k < |s| ==> IsDigit(s[k]) || (k == 0 && s[k] == '-')
    ensures (s[0] == '-') <==> i < 0
    ensures s[0] == '0' ==> s == "0"
    ensures s[0] == '-' ==> |s| > 1 && s[1] != '0'
  {
    if i < 0 then "-" + NatToString(-i) else NatToString(i)
  }

  function ParseNat(s: string): nat
    requires AllDigits(s)
  {
    if s == [] then 0 else 10 * ParseNat(s[..|s| - 1]) + DigitValue(s[|s| - 1])
  }

  /** Reads back an optional minus sign and at least one digit. */
  function ParseInt(s: string): Option<int> {
    if |s| > 1 && s[0] == '-' && AllDigits(s[1..]) then Some(-(ParseNat(s[1..]) as int))
    else if |s| > 0 && AllDigits(s) then Some(ParseNat(s))
    else None
  }

  lemma {:induction false} ParseNatToString(n: nat)
    ensures ParseNat(NatToString(n)) == n
  {
    if n >= 10 {
      var s := NatToString(n);
      ParseNatToString(n / 10);
      assert s[..|s| - 1] == NatToString(n / 10);
      assert DigitValue(s[|s| - 1]) == n % 10;
    } else {
      assert DigitValue(DigitChar(n)) == n;
    }
  }

  /** The rendering of an integer reads back as that integer. */
  lemma {:induction false} ParseIntToString(i: int)
    ensures ParseInt(IntToString(i)) == Some(i)
  {
    if i < 0 {
      var s := IntToString(i);
      assert s[1..] == NatToString(-i);
      ParseNatToString(-i);
    } else {
      ParseNatToString(i);
    }
  }

  /** Distinct integers render differently. */
  lemma IntToStringInjective(i: int, j: int)
    requires IntToString(i) == IntToString(j)
    ensures i == j
  {
    ParseIntToString(i);
    ParseIntToString(j);
  }
}

=== FILE: hypr_commands.dfy ===
/**
 * The compositor adapter: the records `hyprctl -j` returns, the dispatch command
 * strings and how `dispatch` tokenises them, and the launch information that
 * `capture_state` reads from `/proc/<pid>`.
 */
module HyprCommands {
  import opened Wrappers
  import opened Split
  import opened Decimal
  import opened Text

  type I32 = x: int | -0x8000_0000 <= x < 0x8000_0000
  type I64 = x: int | -0x8000_0000_0000_0000 <= x < 0x8000_0000_0000_0000
  type Byte = b: int | 0 <= b < 0x100

  /** One argument vector as `hyprctl dispatch` receives it. */
  type Argv = seq<string>

  datatype WorkspaceRef = WorkspaceRef(id: I32, name: string)

  /** A pair written `[i32; 2]` in the record: `at` is (x, y), `size` is (width, height). */
  datatype Pair = Pair(first: I32, second: I32)

  /**
   * A window as the compositor reports it. `windowClass` and `initialClass` are the
   * record's `class` and `initial_class`; `command` and `exePath` are filled in by
   * `CaptureState`, never by the compositor.
   */
  datatype Client = Client(
    address: string,
    at: Pair,
    size: Pair,
    workspace: WorkspaceRef,
    windowClass: string,
    title: string,
    initialClass: string,
    initialTitle: string,
    floating: bool,
    pinned: bool,
    monitor: I64,
    fullscreen: I32,
    xwayland: bool,
    pid: I32,
    command: Option<seq<string>>,
    exePath: Option<string>)

  datatype Workspace = Workspace(
    id: I32,
    name: string,
    monitor: string,
    windows: I32,
    hasFullscreen: bool,
    lastWindow: string,
    lastWindowTitle: string)

  datatype Monitor = Monitor(
    id: I64,
    name: string,
    width: I32,
    height: I32,
    x: I32,
    y: I32,
    activeWorkspace: WorkspaceRef)

  datatype SessionSnapshot = SessionSnapshot(
    clients: seq<Client>,
    workspaces: seq<Workspace>,
    monitors: seq<Monitor>)

  /** Why an operation of the adapter failed. */
  datatype Error =
    | QueryFailed(query: string)     // `hyprctl -j <query>` failed or did not parse
    | DispatchFailed(args: Argv)     // the compositor refused a dispatch

  // ---------------------------------------------------------------------------
  // Tokenising in `dispatch`

  /** The characters for which Rust's `char::is_whitespace` holds. */
  const Whitespace: set<char> := {
    '\t', '\n', '\U{000B}', '\U{000C}', '\r', ' ', '\U{0085}', '\U{00A0}', '\U{1680}',
    '\U{2000}', '\U{2001}', '\U{2002}', '\U{2003}', '\U{2004}', '\U{2005}', '\U{2006}',
    '\U{2007}', '\U{2008}', '\U{2009}', '\U{200A}', '\U{2028}', '\U{2029}', '\U{202F}',
    '\U{205F}', '\U{3000}'}

  predicate NoWhitespace(s: string) {
    forall i :: 0 <= i < |s| ==> s[i] !in Whitespace
  }

  /**
   * The arguments `dispatch` passes after `hyprctl dispatch`: the white-space
   * separated words of the command. No word is empty or holds white space, the
   * words keep the command's characters in order, and joined with single spaces
   * they are the command with its white-space runs collapsed and ends trimmed.
   */
  function DispatchArgs(command: string): (args: Argv)
    ensures forall k :: 0 <= k < |args| ==> IsField(args[k], Whitespace)
    ensures Flatten(args) == Strip(command, Whitespace)
    ensures Join(args, ' ') == Squeeze(command, Whitespace, ' ', Start)
  {
    FlattenFields(command, Whitespace);
    JoinFields(command, Whitespace, ' ');
    Fields(command, Whitespace)
  }

  // ---------------------------------------------------------------------------
  // Dispatch commands

  /** The dispatch commands the restore issues, each aimed at one window. */
  datatype Dispatch =
    | MoveToWorkspace(address: string, workspace: I32)
    | Focus(address: string)
    | MovePixel(address: string, x: I32, y: I32)
    | ResizePixel(address: string, width: I32, height: I32)
    | ToggleFloating(address: string)

  /** The command string each builder formats. */
  function Render(d: Dispatch): (s: string)
    ensures EndsWith(s, "address:" + d.address)
  {
    match d
    case MoveToWorkspace(a, ws) =>
      var p := "movetoworkspacesilent " + IntToString(ws);
      CommaAddress(p, a);
      p + ",address:" + a
    case Focus(a) =>
      assert "focuswindow address:" == "focuswindow" + [' '] + "address:";
      EndsInAddress("focuswindow", ' ', a);
      "focuswindow address:" + a
    case MovePixel(a, x, y) =>
      var p := "movewindowpixel exact " + IntToString(x) + " " + IntToString(y);
      CommaAddress(p, a);
      p + ",address:" + a
    case ResizePixel(a, w, h) =>
      var p := "resizewindowpixel exact " + IntToString(w) + " " + IntToString(h);
      CommaAddress(p, a);
      p + ",address:" + a
    case ToggleFloating(a) =>
      assert "togglefloating address:" == "togglefloating" + [' '] + "address:";
      EndsInAddress("togglefloating", ' ', a);
      "togglefloating address:" + a
  }

  /** The words each command is meant to reach the compositor as. */
  function Words(d: Dispatch): (w: Argv)
    ensures |w| >= 2 && forall k :: 0 <= k < |w| ==> w[k] != []
    ensures EndsWith(w[|w| - 1], "address:" + d.address)
  {
    match d
    case MoveToWorkspace(a, ws) =>
      CommaAddress(IntToString(ws), a);
      ["movetoworkspacesilent", IntToString(ws) + ",address:" + a]
    case Focus(a) =>
      EndsWithAppend([], "address:" + a);
      ["focuswindow", "address:" + a]
    case MovePixel(a, x, y) =>
      CommaAddress(IntToString(y), a);
      ["movewindowpixel", "exact", IntToString(x), IntToString(y) + ",address:" + a]
    case ResizePixel(a, w, h) =>
      CommaAddress(IntToString(h), a);
      ["resizewindowpixel", "exact", IntToString(w), IntToString(h) + ",address:" + a]
    case ToggleFloating(a) =>
      EndsWithAppend([], "address:" + a);
      ["togglefloating", "address:" + a]
  }

  lemma EndsInAddress(p: string, sep: char, a: string)
    ensures EndsWith(p + [sep] + "address:" + a, "address:" + a)
  {
    assert p + [sep] + "address:" + a == (p + [sep]) + ("address:" + a);
    EndsWithAppend(p + [sep], "address:" + a);
  }

  lemma CommaAddress(p: string, a: string)
    ensures EndsWith(p + ",address:" + a, "address:" + a)
  {
    assert ",address:" == [','] + "address:";
    EndsInAddress(p, ',', a);
  }

  /** The argument vector `dispatch` sends for a command. */
  function Args(d: Dispatch): (argv: Argv)
    ensures NoWhitespace(d.address) ==> argv == Words(d)
  {
    if NoWhitespace(d.address) then RenderedArgs(d); DispatchArgs(Render(d))
    else DispatchArgs(Render(d))
  }

  /** Visible ASCII only: the words of the command formats. */
  predicate Printable(s: string) {
    forall i :: 0 <= i < |s| ==> '!' <= s[i] <= '~'
  }

  lemma PrintableNoWhitespace(s: string)
    requires Printable(s)
    ensures NoWhitespace(s)
  {
  }

  lemma NumberNoWhitespace(i: int)
    ensures NoWhitespace(IntToString(i))
  {
  }

  lemma ConcatNoWhitespace(a: string, b: string)
    requires NoWhitespace(a) && NoWhitespace(b)
    ensures NoWhitespace(a + b)
  {
    forall k | 0 <= k < |a + b| ensures (a + b)[k] !in Whitespace {
      if k >= |a| {
        assert (a + b)[k] == b[k - |a|];
      }
    }
  }

  /** The last word of the workspace, move and resize commands has no white space. */
  lemma TailField(i: int, a: string)
    requires NoWhitespace(a)
    ensures IsField(IntToString(i) + ",address:" + a, Whitespace)
  {
    NumberNoWhitespace(i);
    assert Printable(",address:");
    ConcatNoWhitespace(IntToString(i), ",address:");
    ConcatNoWhitespace(IntToString(i) + ",address:", a);
  }

  lemma AddressField(a: string)
    requires NoWhitespace(a)
    ensures IsField("address:" + a, Whitespace)
  {
    assert Printable("address:");
    ConcatNoWhitespace("address:", a);
  }

  lemma JoinTwo(w0: string, w1: string)
    ensures Join([w0, w1], ' ') == w0 + [' '] + w1
  {
    assert [w0, w1][1..] == [w1];
  }

  lemma JoinFour(w0: string, w1: string, w2: string, w3: string)
    ensures Join([w0, w1, w2, w3], ' ') == w0 + [' '] + w1 + [' '] + w2 + [' '] + w3
  {
    var ws := [w0, w1, w2, w3];
    assert ws[1..] == [w1, w2, w3];
    assert ws[1..][1..] == [w2, w3];
    JoinTwo(w2, w3);
    assert Join([w1, w2, w3], ' ') == w1 + [' '] + (w2 + [' '] + w3);
  }

  lemma WorkspaceMoveJoined(a: string, ws: I32)
    ensures Render(MoveToWorkspace(a, ws)) == Join(Words(MoveToWorkspace(a, ws)), ' ')
  {
    JoinTwo("movetoworkspacesilent", IntToString(ws) + ",address:" + a);
    assert "movetoworkspacesilent " == "movetoworkspacesilent" + [' '];
  }

  lemma FocusJoined(a: string)
    ensures Render(Focus(a)) == Join(Words(Focus(a)), ' ')
  {
    JoinTwo("focuswindow", "address:" + a);
    assert "focuswindow address:" == "focuswindow" + [' '] + "address:";
  }

  lemma MovePixelJoined(a: string, x: I32, y: I32)
    ensures Render(MovePixel(a, x, y)) == Join(Words(MovePixel(a, x, y)), ' ')
  {
    PixelJoined("movewindowpixel exact ", "movewindowpixel", IntToString(x), IntToString(y), a);
  }

  lemma ResizePixelJoined(a: string, w: I32, h: I32)
    ensures Render(ResizePixel(a, w, h)) == Join(Words(ResizePixel(a, w, h)), ' ')
  {
    PixelJoined("resizewindowpixel exact ", "resizewindowpixel", IntToString(w), IntToString(h), a);
  }

  /** The shape both pixel commands share, over any numbers' text. */
  lemma PixelJoined(head: string, name: string, nx: string, ny: string, a: string)
    requires head == name + " exact "
    ensures head + nx + " " + ny + ",address:" + a == Join([name, "exact", nx, ny + ",address:" + a], ' ')
  {
    JoinFour(name, "exact", nx, ny + ",address:" + a);
    assert head == name + [' '] + "exact" + [' '];
    assert " " == [' '];
  }

  lemma ToggleFloatingJoined(a: string)
    ensures Render(ToggleFloating(a)) == Join(Words(ToggleFloating(a)), ' ')
  {
    JoinTwo("togglefloating", "address:" + a);
    assert "togglefloating address:" == "togglefloating" + [' '] + "address:";
  }

  lemma {:induction false} RenderIsJoinedWords(d: Dispatch)
    ensures Render(d) == Join(Words(d), ' ')
  {
    match d
    case MoveToWorkspace(a, ws) => WorkspaceMoveJoined(a, ws);
    case Focus(a) => FocusJoined(a);
    case MovePixel(a, x, y) => MovePixelJoined(a, x, y);
    case ResizePixel(a, w, h) => ResizePixelJoined(a, w, h);
    case ToggleFloating(a) => ToggleFloatingJoined(a);
  }

  /**
   * For an address without white space, every command reaches the compositor as
   * exactly its intended words: the formats survive `dispatch`'s tokenising.
   */
  lemma RenderedArgs(d: Dispatch)
    requires NoWhitespace(d.address)
    ensures DispatchArgs(Render(d)) == Words(d)
  {
    RenderIsJoinedWords(d);
    WordsAreFields(d);
    FieldsOfJoin(Words(d), ' ', Whitespace);
  }

  lemma WordsAreFields(d: Dispatch)
    requires NoWhitespace(d.address)
    ensures forall k :: 0 <= k < |Words(d)| ==> IsField(Words(d)[k], Whitespace)
  {
    match d {
    case MoveToWorkspace(a, ws) =>
      KeywordField("movetoworkspacesilent");
      TailField(ws, a);
    case Focus(a) =>
      KeywordField("focuswindow");
      AddressField(a);
    case MovePixel(a, x, y) =>
      KeywordField("movewindowpixel");
      KeywordField("exact");
      NumberNoWhitespace(x);
      TailField(y, a);
    case ResizePixel(a, w, h) =>
      KeywordField("resizewindowpixel");
      KeywordField("exact");
      NumberNoWhitespace(w);
      TailField(h, a);
    case ToggleFloating(a) =>
      KeywordField("togglefloating");
      AddressField(a);
    }
  }

  lemma KeywordField(w: string)
    requires |w| > 0 && Printable(w)
    ensures IsField(w, Whitespace)
  {
  }

  // ---------------------------------------------------------------------------
  // Launch information from /proc (`capture_state`)

  /**
   * `String::from_utf8_lossy` on one byte: ASCII is kept and every other byte
   * becomes the replacement character.
   */
  function DecodeByte(b: Byte): (c: char)
    ensures c == '\0' <==> b == 0
  {
    if b < 0x80 then b as char else '\U{FFFD}'
  }

  function DecodeLossy(bytes: seq<Byte>): (s: string)
    ensures |s| == |bytes|
    ensures forall i :: 0 <= i < |bytes| ==> s[i] == DecodeByte(bytes[i])
  {
    seq(|bytes|, i requires 0 <= i < |bytes| => DecodeByte(bytes[i]))
  }

  function DecodeAll(pieces: seq<seq<Byte>>): (r: seq<string>)
    ensures |r| == |pieces|
    ensures forall k :: 0 <= k < |pieces| ==> r[k] == DecodeLossy(pieces[k])
  {
    if pieces == [] then [] else [DecodeLossy(pieces[0])] + DecodeAll(pieces[1..])
  }

  const Nul: set<Byte> := {0}

  predicate NoNul(arg: string) {
    forall i :: 0 <= i < |arg| ==> arg[i] != '\0'
  }

  /**
   * The argument vector in a `/proc/<pid>/cmdline` file: the NUL-separated pieces,
   * empty ones dropped. No argument is empty or holds a NUL, and together they
   * are the file's non-NUL bytes in their order.
   */
  function ParseCmdline(bytes: seq<Byte>): (args: seq<string>)
    ensures forall k :: 0 <= k < |args| ==> |args[k]| > 0 && NoNul(args[k])
    ensures Flatten(args) == DecodeLossy(Strip(bytes, Nul))
  {
    var pieces := Fields(bytes, Nul);
    FlattenFields(bytes, Nul);
    DecodeFlatten(pieces);
    DecodeAll(pieces)
  }

  lemma DecodeAppend(a: seq<Byte>, b: seq<Byte>)
    ensures DecodeLossy(a + b) == DecodeLossy(a) + DecodeLossy(b)
  {
  }

  lemma {:induction false} DecodeFlatten(pieces: seq<seq<Byte>>)
    ensures Flatten(DecodeAll(pieces)) == DecodeLossy(Flatten(pieces))
  {
    if pieces != [] {
      DecodeFlatten(pieces[1..]);
      DecodeAppend(pieces[0], Flatten(pieces[1..]));
      assert DecodeAll(pieces)[1..] == DecodeAll(pieces[1..]);
    }
  }

  /**
   * The kernel writes each argument followed by a NUL; reading such a file gives
   * back every non-empty, NUL-free argument in order.
   */
  lemma CmdlineRoundTrip(argv: seq<seq<Byte>>)
    requires forall k :: 0 <= k < |argv| ==> IsField(argv[k], Nul)
    ensures ParseCmdline(Terminated(argv, 0)) == DecodeAll(argv)
  {
    FieldsOfTerminated(argv, 0, Nul);
  }

  /** The files `capture_state` reads: `/proc` entries by path; an absent path is a failed read. */
  datatype ProcFs = ProcFs(files: map<string, seq<Byte>>, links: map<string, string>)

  function CmdlinePath(pid: int): (path: string)
    ensures StartsWith(path, "/proc/") && EndsWith(path, "/cmdline")
  {
    "/proc/" + IntToString(pid) + "/cmdline"
  }

  /** What lies between `/proc/` and `/cmdline` is exactly the decimal pid. */
  lemma CmdlinePathNamesPid(pid: int)
    ensures var path := CmdlinePath(pid);
      |path| == |IntToString(pid)| + 14 && path[6..|path| - 8] == IntToString(pid)
  {
    Middle("/proc/", IntToString(pid), "/cmdline");
  }

  function ExeLinkPath(pid: int): (path: string)
    ensures StartsWith(path, "/proc/") && EndsWith(path, "/exe")
    ensures path != CmdlinePath(pid)
  {
    "/proc/" + IntToString(pid) + "/exe"
  }

  /** What lies between `/proc/` and `/exe` is exactly the decimal pid. */
  lemma ExeLinkPathNamesPid(pid: int)
    ensures var path := ExeLinkPath(pid);
      |path| == |IntToString(pid)| + 10 && path[6..|path| - 4] == IntToString(pid)
  {
    Middle("/proc/", IntToString(pid), "/exe");
  }

  /** Distinct processes have distinct cmdline files. */
  lemma CmdlinePathInjective(p: int, q: int)
    requires CmdlinePath(p) == CmdlinePath(q)
    ensures p == q
  {
    var a, b := IntToString(p), IntToString(q);
    assert CmdlinePath(p) == "/proc/" + (a + "/cmdline");
    assert CmdlinePath(q) == "/proc/" + (b + "/cmdline");
    var x, y := a + "/cmdline", b + "/cmdline";
    assert ("/proc/" + x)[6..] == x;
    assert ("/proc/" + y)[6..] == y;
    assert x == y;
    assert a == x[..|a|];
    assert b == y[..|b|];
    IntToStringInjective(p, q);
  }

  /** The argument vector read for `pid`, if its cmdline file was readable. */
  function ReadArgv(pid: int, proc: ProcFs): (r: Option<seq<string>>)
    ensures r.Some? <==> CmdlinePath(pid) in proc.files
    ensures r.Some? ==> forall k :: 0 <= k < |r.value| ==> |r.value[k]| > 0 && NoNul(r.value[k])
  {
    if CmdlinePath(pid) in proc.files then Some(ParseCmdline(proc.files[CmdlinePath(pid)])) else None
  }

  /**
   * One client's pass through the loop of `capture_state`: a non-empty argument
   * vector from cmdline is preferred; otherwise the executable link, when it can
   * be read. Only `command` or `exePath` changes, never both, and each only from
   * a successful read.
   */
  function CaptureLaunchInfo(c: Client, proc: ProcFs): (r: Client)
    ensures r.(command := c.command, exePath := c.exePath) == c
    ensures r.command == c.command || r.exePath == c.exePath
    ensures r.command != c.command ==>
      ReadArgv(c.pid, proc).Some? && ReadArgv(c.pid, proc).value != [] && r.command == ReadArgv(c.pid, proc)
    ensures r.exePath != c.exePath ==>
      ExeLinkPath(c.pid) in proc.links && r.exePath == Some(proc.links[ExeLinkPath(c.pid)])
    ensures ReadArgv(c.pid, proc).Some? && ReadArgv(c.pid, proc).value != [] ==>
      r.command == ReadArgv(c.pid, proc) && r.exePath == c.exePath
    ensures !(ReadArgv(c.pid, proc).Some? && ReadArgv(c.pid, proc).value != []) ==>
      && r.command == c.command
      && r.exePath == (if ExeLinkPath(c.pid) in proc.links then Some(proc.links[ExeLinkPath(c.pid)]) else c.exePath)
  {
    var argv := ReadArgv(c.pid, proc);
    if argv.Some? && argv.value != [] then c.(command := argv)
    else if ExeLinkPath(c.pid) in proc.links then c.(exePath := Some(proc.links[ExeLinkPath(c.pid)])) else c
  }

  /** A client fresh from the compositor never leaves capture with both launch fields set. */
  lemma CaptureNeverSetsBoth(c: Client, proc: ProcFs)
    requires c.command.None? && c.exePath.None?
    ensures var r := CaptureLaunchInfo(c, proc); r.command.None? || r.exePath.None?
  {
  }

  /**
   * The loop of `capture_state`: every client in `a`, in place, gains its launch
   * information and keeps its place.
   */
  method FillLaunchInfo(a: array<Client>, proc: ProcFs)
    modifies a
    ensures forall j :: 0 <= j < a.Length ==> a[j] == CaptureLaunchInfo(old(a[j]), proc)
  {
    ghost var live := a[..];
    for i := 0 to a.Length
      invariant forall j :: 0 <= j < i ==> a[j] == CaptureLaunchInfo(live[j], proc)
      invariant forall j :: i <= j < a.Length ==> a[j] == live[j]
    {
      var c := a[i];
      var cmdlinePath := CmdlinePath(c.pid);
      var exePath := ExeLinkPath(c.pid);
      if cmdlinePath in proc.files {
        var args := ParseCmdline(proc.files[cmdlinePath]);
        if args != [] {
          a[i] := c.(command := Some(args));
          continue;
        }
      }
      if exePath in proc.links {
        a[i] := c.(exePath := Some(proc.links[exePath]));
      }
    }
  }

  /**
   * `capture_state`: query the clients, fill in each one's launch information in
   * place, then query workspaces and monitors. The first failed query is the
   * error; every client keeps its place and only gains launch information.
   */
  method CaptureState(
    clients: Option<seq<Client>>, workspaces: Option<seq<Workspace>>, monitors: Option<seq<Monitor>>,
    proc: ProcFs)
    returns (r: Result<SessionSnapshot, Error>)
    ensures clients.None? ==> r == Err(QueryFailed("clients"))
    ensures clients.Some? && workspaces.None? ==> r == Err(QueryFailed("workspaces"))
    ensures clients.Some? && workspaces.Some? && monitors.None? ==> r == Err(QueryFailed("monitors"))
    ensures r.Ok? <==> clients.Some? && workspaces.Some? && monitors.Some?
    ensures r.Ok? ==>
      && r.value.workspaces == workspaces.value
      && r.value.monitors == monitors.value
      && |r.value.clients| == |clients.value|
      && forall i :: 0 <= i < |clients.value| ==> r.value.clients[i] == CaptureLaunchInfo(clients.value[i], proc)
  {
    if clients.None? {
      return Err(QueryFailed("clients"));
    }
    var a := new Client[|clients.value|](i requires 0 <= i < |clients.value| => clients.value[i]);
    FillLaunchInfo(a, proc);
    if workspaces.None? {
      return Err(QueryFailed("workspaces"));
    }
    if monitors.None? {
      return Err(QueryFailed("monitors"));
    }
    r := Ok(SessionSnapshot(a[..], workspaces.value, monitors.value));
  }
}

=== FILE: position.dfy ===
/**
 * `restore_window_position`: the dispatches that put one live window where its
 * saved record was, issued in order and abandoned at the first refusal.
 */
module Position {
  import opened Wrappers
  import opened HyprCommands

  /**
   * The commands issued when every dispatch succeeds, all aimed at the live
   * window: a silent workspace move when the workspaces differ; for a saved
   * floating window a toggle when the live one is tiled, then the exact move and
   * resize; for a saved tiled window a toggle when the live one floats.
   */
  function PositionCommands(current: Client, saved: Client): (plan: seq<Dispatch>)
    ensures |plan| <= 4
    ensures forall k :: 0 <= k < |plan| ==> plan[k].address == current.address && !plan[k].Focus?
  {
    var a := current.address;
    (if current.workspace.id != saved.workspace.id then [MoveToWorkspace(a, saved.workspace.id)] else [])
    + (if saved.floating then
         (if !current.floating then [ToggleFloating(a)] else [])
         + [MovePixel(a, saved.at.first, saved.at.second), ResizePixel(a, saved.size.first, saved.size.second)]
       else if current.floating then [ToggleFloating(a)] else [])
  }

  /** What a run of dispatches did: the argument vectors accepted, and the refused one, if any. */
  datatype Applied = Applied(issued: seq<Argv>, failed: Option<Argv>)

  /** The argument vectors `dispatch` sends for each command of a plan. */
  function ArgsOf(plan: seq<Dispatch>): (argvs: seq<Argv>)
    ensures |argvs| == |plan| && forall k :: 0 <= k < |plan| ==> argvs[k] == Args(plan[k])
  {
    seq(|plan|, k requires 0 <= k < |plan| => Args(plan[k]))
  }

  /**
   * Sending argument vectors through `dispatch` with Rust's `?`: they are sent
   * in order; the first one the compositor refuses ends the run, and nothing
   * after it is sent.
   */
  function Run(argvs: seq<Argv>, rejected: set<Argv>): (r: Applied)
    ensures |r.issued| <= |argvs| && r.issued == argvs[..|r.issued|]
    ensures forall k :: 0 <= k < |r.issued| ==> r.issued[k] !in rejected
    ensures r.failed.None? <==> forall k :: 0 <= k < |argvs| ==> argvs[k] !in rejected
    ensures r.failed.None? ==> r.issued == argvs
    ensures r.failed.Some? ==>
      |r.issued| < |argvs| && r.failed.value == argvs[|r.issued|] && r.failed.value in rejected
  {
    if argvs == [] then Applied([], None)
    else if argvs[0] in rejected then Applied([], Some(argvs[0]))
    else
      var rest := Run(argvs[1..], rejected);
      assert argvs == [argvs[0]] + argvs[1..];
      Applied([argvs[0]] + rest.issued, rest.failed)
  }

  /** Where a window is, as far as these commands are concerned. */
  datatype Placement = Placement(workspace: I32, floating: bool, at: Pair, size: Pair)

  function PlacementOf(c: Client): Placement {
    Placement(c.workspace.id, c.floating, c.at, c.size)
  }

  /** What the compositor does to the target window on each accepted command. */
  function Effect(p: Placement, d: Dispatch): Placement {
    match d
    case MoveToWorkspace(_, ws) => p.(workspace := ws)
    case Focus(_) => p
    case MovePixel(_, x, y) => p.(at := Pair(x, y))
    case ResizePixel(_, w, h) => p.(size := Pair(w, h))
    case ToggleFloating(_) => p.(floating := !p.floating)
  }

  function EffectAll(p: Placement, plan: seq<Dispatch>): Placement
    decreases |plan|
  {
    if plan == [] then p else EffectAll(Effect(p, plan[0]), plan[1..])
  }

  /** On the saved workspace with the saved floating state; a floating window also at the saved geometry. */
  predicate AtSaved(p: Placement, saved: Client) {
    && p.workspace == saved.workspace.id
    && p.floating == saved.floating
    && (saved.floating ==> p.at == saved.at && p.size == saved.size)
  }

  function CountToggles(plan: seq<Dispatch>): nat {
    if plan == [] then 0 else (if plan[0].ToggleFloating? then 1 else 0) + CountToggles(plan[1..])
  }

  /**
   * `restore_window_position` run against the compositor: when nothing is
   * refused, every planned command was sent and the window ends at its saved
   * placement; otherwise the sent commands are a prefix of the plan.
   */
  function RestoreWindowPosition(current: Client, saved: Client, rejected: set<Argv>): (r: Applied)
    ensures |r.issued| <= |PositionCommands(current, saved)|
    ensures r.issued == ArgsOf(PositionCommands(current, saved))[..|r.issued|]
    ensures r.failed.None? ==> r.issued == ArgsOf(PositionCommands(current, saved))
    ensures r.failed.None? ==> AtSaved(EffectAll(PlacementOf(current), PositionCommands(current, saved)), saved)
    ensures r.failed.None? <==> forall k :: 0 <= k < |PositionCommands(current, saved)| ==>
      ArgsOf(PositionCommands(current, saved))[k] !in rejected
    ensures r.failed.Some? ==>
      && |r.issued| < |PositionCommands(current, saved)|
      && r.failed.value == ArgsOf(PositionCommands(current, saved))[|r.issued|]
      && r.failed.value in rejected
  {
    PositionReachesSaved(current, saved);
    Run(ArgsOf(PositionCommands(current, saved)), rejected)
  }

  lemma {:induction false} EffectAllAppend(p: Placement, a: seq<Dispatch>, b: seq<Dispatch>)
    ensures EffectAll(p, a + b) == EffectAll(EffectAll(p, a), b)
    decreases |a|
  {
    if a == [] {
      assert a + b == b;
    } else {
      assert (a + b)[0] == a[0];
      assert (a + b)[1..] == a[1..] + b;
      EffectAllAppend(Effect(p, a[0]), a[1..], b);
    }
  }

  lemma {:induction false} CountTogglesAppend(a: seq<Dispatch>, b: seq<Dispatch>)
    ensures CountToggles(a + b) == CountToggles(a) + CountToggles(b)
    decreases |a|
  {
    if a == [] {
      assert a + b == b;
    } else {
      assert (a + b)[0] == a[0];
      assert (a + b)[1..] == a[1..] + b;
      CountTogglesAppend(a[1..], b);
    }
  }

  lemma EffectOne(p: Placement, d: Dispatch)
    ensures EffectAll(p, [d]) == Effect(p, d)
  {
    assert [d][1..] == [];
  }

  lemma CountOne(d: Dispatch)
    ensures CountToggles([d]) == if d.ToggleFloating? then 1 else 0
  {
    assert [d][1..] == [];
  }

  /** The plan in its three parts: workspace move, toggle, exact geometry. */
  lemma PlanParts(current: Client, saved: Client)
    ensures PositionCommands(current, saved)
      == WorkspacePart(current, saved) + TogglePart(current, saved) + GeometryPart(current, saved)
  {
  }

  function WorkspacePart(current: Client, saved: Client): seq<Dispatch> {
    if current.workspace.id != saved.workspace.id then [MoveToWorkspace(current.address, saved.workspace.id)] else []
  }

  function TogglePart(current: Client, saved: Client): seq<Dispatch> {
    if current.floating != saved.floating then [ToggleFloating(current.address)] else []
  }

  function GeometryPart(current: Client, saved: Client): seq<Dispatch> {
    if saved.floating
    then [MovePixel(current.address, saved.at.first, saved.at.second),
          ResizePixel(current.address, saved.size.first, saved.size.second)]
    else []
  }

  /** Applying every planned command takes any live window to its saved placement. */
  lemma PositionReachesSaved(current: Client, saved: Client)
    ensures AtSaved(EffectAll(PlacementOf(current), PositionCommands(current, saved)), saved)
  {
    var w, t, g := WorkspacePart(current, saved), TogglePart(current, saved), GeometryPart(current, saved);
    PlanParts(current, saved);
    EffectAllAppend(PlacementOf(current), w + t, g);
    EffectAllAppend(PlacementOf(current), w, t);
    var p0 := PlacementOf(current);
    if w != [] { EffectOne(p0, w[0]); }
    var p1 := EffectAll(p0, w);
    assert p1.workspace == saved.workspace.id && p1.floating == current.floating && p1.at == current.at && p1.size == current.size;
    if t != [] { EffectOne(p1, t[0]); }
    var p2 := EffectAll(p1, t);
    assert p2.workspace == saved.workspace.id && p2.floating == saved.floating;
    if g != [] {
      assert g == [g[0]] + [g[1]];
      EffectAllAppend(p2, [g[0]], [g[1]]);
      EffectOne(p2, g[0]);
      EffectOne(Effect(p2, g[0]), g[1]);
    }
  }

  /** A workspace move is issued exactly when the workspaces differ, and then it comes first. */
  lemma WorkspaceMoveIff(current: Client, saved: Client)
    ensures var plan := PositionCommands(current, saved);
      && ((exists k :: 0 <= k < |plan| && plan[k].MoveToWorkspace?) <==> current.workspace.id != saved.workspace.id)
      && (current.workspace.id != saved.workspace.id ==>
            plan[0] == MoveToWorkspace(current.address, saved.workspace.id))
      && (forall k :: 0 < k < |plan| ==> !plan[k].MoveToWorkspace?)
  {
    var w := WorkspacePart(current, saved);
    var rest := TogglePart(current, saved) + GeometryPart(current, saved);
    PlanParts(current, saved);
    RestHasNoMove(current, saved);
    var plan := PositionCommands(current, saved);
    assert plan == w + rest;
    if current.workspace.id != saved.workspace.id {
      assert plan == [MoveToWorkspace(current.address, saved.workspace.id)] + rest;
      assert forall k :: 0 < k < |plan| ==> plan[k] == rest[k - 1];
      assert plan[0].MoveToWorkspace?;
    } else {
      assert plan == rest;
    }
  }

  lemma RestHasNoMove(current: Client, saved: Client)
    ensures var rest := TogglePart(current, saved) + GeometryPart(current, saved);
      forall k :: 0 <= k < |rest| ==> !rest[k].MoveToWorkspace?
  {
  }

  /** At most one toggle, issued exactly when the live and saved floating states differ. */
  lemma ToggleIff(current: Client, saved: Client)
    ensures CountToggles(PositionCommands(current, saved)) == if current.floating != saved.floating then 1 else 0
  {
    var w, t, g := WorkspacePart(current, saved), TogglePart(current, saved), GeometryPart(current, saved);
    PlanParts(current, saved);
    CountTogglesAppend(w + t, g);
    CountTogglesAppend(w, t);
    if w != [] { CountOne(w[0]); }
    if t != [] { CountOne(t[0]); }
    if g != [] {
      assert g == [g[0]] + [g[1]];
      CountTogglesAppend([g[0]], [g[1]]);
      CountOne(g[0]);
      CountOne(g[1]);
    }
  }

  /**
   * A saved floating window ends with the exact move and then the resize to its
   * saved geometry; a saved tiled window gets neither.
   */
  lemma GeometryOnlyWhenFloating(current: Client, saved: Client)
    ensures var plan := PositionCommands(current, saved);
      && (saved.floating ==>
            |plan| >= 2
            && plan[|plan| - 2] == MovePixel(current.address, saved.at.first, saved.at.second)
            && plan[|plan| - 1] == ResizePixel(current.address, saved.size.first, saved.size.second))
      && (!saved.floating ==> forall k :: 0 <= k < |plan| ==> !plan[k].MovePixel? && !plan[k].ResizePixel?)
  {
  }

  /** A tiled window already on its saved workspace and saved as tiled gets no command at all. */
  lemma AlreadyPlacedTiledIsQuiet(current: Client, saved: Client)
    requires current.workspace.id == saved.workspace.id
    requires !current.floating && !saved.floating
    ensures PositionCommands(current, saved) == []
  {
  }

  /**
   * Re-applying to a window already at its saved placement issues no workspace
   * move and no toggle: only a floating window's move and resize are repeated.
   */
  lemma ReapplyIsStable(current: Client, saved: Client)
    requires AtSaved(PlacementOf(current), saved)
    ensures PositionCommands(current, saved)
      == if saved.floating
         then [MovePixel(current.address, saved.at.first, saved.at.second),
               ResizePixel(current.address, saved.size.first, saved.size.second)]
         else []
  {
  }
}

=== FILE: restore.dfy ===
/**
 * `restore_session`: match each saved window to a live one of the same class,
 * launch the missing ones on their workspace, and after one wait position the
 * launched windows that have appeared.
 */
module Restore {
  import opened Wrappers
  import opened Split
  import opened Text
  import opened Decimal
  import opened HyprCommands
  import opened Position

  // ---------------------------------------------------------------------------
  // Launch commands

  /** The static table of class names whose executable is named differently. */
  const Aliases: map<string, string> := map[
    "brave-browser" := "brave",
    "code" := "code",
    "google-chrome" := "google-chrome-stable",
    "com.mitchellh.ghostty" := "ghostty"]

  /**
   * `resolve_command`: the lower-cased class, or its alias when the table has
   * one. The result is always lower-case.
   */
  function ResolveCommand(windowClass: string): (cmd: string)
    ensures IsLower(cmd)
    ensures ToLower(windowClass) in Aliases ==> cmd == Aliases[ToLower(windowClass)]
    ensures ToLower(windowClass) !in Aliases ==> cmd == ToLower(windowClass)
  {
    var lower := ToLower(windowClass);
    if lower in Aliases then Aliases[lower] else lower
  }

  /** Upper- and lower-case spellings of a class launch the same command. */
  lemma ResolveIgnoresCase(windowClass: string)
    ensures ResolveCommand(windowClass) == ResolveCommand(ToLower(windowClass))
  {
    ToLowerOfLower(ToLower(windowClass));
  }

  /** Resolving a resolved command changes nothing: no alias leads to another alias. */
  lemma ResolveIdempotent(windowClass: string)
    ensures ResolveCommand(ResolveCommand(windowClass)) == ResolveCommand(windowClass)
  {
    var cmd := ResolveCommand(windowClass);
    if cmd == "brave" {
      ResolvesToItself("brave");
    } else if cmd == "google-chrome-stable" {
      ResolvesToItself("google-chrome-stable");
    } else if cmd == "ghostty" {
      ResolvesToItself("ghostty");
    } else {
      ToLowerOfLower(cmd);
    }
  }

  lemma ResolvesToItself(target: string)
    requires IsLower(target) && target !in Aliases
    ensures ResolveCommand(target) == target
  {
    ToLowerOfLower(target);
  }

  /**
   * The command a missing window is launched with: its executable path when
   * known, otherwise the resolved initial class, or the resolved class when the
   * initial class is empty.
   */
  function LaunchCommand(saved: Client): (cmd: string)
    ensures saved.exePath.Some? ==> cmd == saved.exePath.value
    ensures saved.exePath.None? && saved.initialClass != "" ==> cmd == ResolveCommand(saved.initialClass)
    ensures saved.exePath.None? && saved.initialClass == "" ==> cmd == ResolveCommand(saved.windowClass)
    ensures saved.exePath.None? ==> IsLower(cmd)
  {
    match saved.exePath
    case Some(path) => path
    case None =>
      var rawName := if saved.initialClass != "" then saved.initialClass else saved.windowClass;
      ResolveCommand(rawName)
  }

  /**
   * A window whose argument vector was captured is launched from its class name:
   * capture leaves `exePath` unset in that case and the launch never reads `command`.
   */
  lemma CapturedArgvIsNotLaunched(c: Client, proc: ProcFs)
    requires c.exePath.None?
    requires ReadArgv(c.pid, proc).Some? && ReadArgv(c.pid, proc).value != []
    ensures var captured := CaptureLaunchInfo(c, proc);
      LaunchCommand(captured)
        == ResolveCommand(if c.initialClass != "" then c.initialClass else c.windowClass)
  {
  }

  /** The `exec` rule that starts `command` on workspace `ws` without taking focus. */
  function ExecRule(ws: I32, command: string): (rule: string)
    ensures StartsWith(rule, "[workspace ") && EndsWith(rule, " silent] " + command)
  {
    "[workspace " + IntToString(ws) + " silent] " + command
  }

  /** The rule names exactly the given workspace, between `[workspace ` and ` silent] `. */
  lemma ExecRuleNamesWorkspace(ws: I32, command: string)
    ensures var rule := ExecRule(ws, command);
      |rule| == 20 + |IntToString(ws)| + |command| && rule[11..|rule| - 9 - |command|] == IntToString(ws)
  {
    var n := IntToString(ws);
    Middle("[workspace ", n, " silent] " + command);
    assert "[workspace " + n + " silent] " + command == "[workspace " + n + (" silent] " + command);
  }

  /** What a launch sends: `hyprctl dispatch exec <rule>`, the rule as one argument. */
  function ExecArgs(saved: Client): (argv: Argv)
    ensures |argv| == 2 && argv[0] == "exec" && argv[1] == ExecRule(saved.workspace.id, LaunchCommand(saved))
  {
    ["exec", ExecRule(saved.workspace.id, LaunchCommand(saved))]
  }

  /**
   * Why the launch does not go through `dispatch`: tokenising the same text
   * would break the rule into separate words.
   */
  lemma ExecRuleSplitByDispatch(ws: I32, command: string)
    ensures DispatchArgs("exec " + ExecRule(ws, command))
      == ["exec", "[workspace", IntToString(ws), "silent]"] + DispatchArgs(command)
    ensures |DispatchArgs("exec " + ExecRule(ws, command))| >= 4
  {
    var n := IntToString(ws);
    NumberNoWhitespace(ws);
    assert Printable("exec") && Printable("[workspace") && Printable("silent]");
    KeywordField("exec");
    KeywordField("[workspace");
    KeywordField("silent]");
    ExecTextShape(n, command);
    FourFieldsThen("exec", "[workspace", n, "silent]", ' ', command, Whitespace);
  }

  lemma FourFieldsThen<T>(a: seq<T>, b: seq<T>, c: seq<T>, d: seq<T>, sep: T, rest: seq<T>, seps: set<T>)
    requires IsField(a, seps) && IsField(b, seps) && IsField(c, seps) && IsField(d, seps)
    requires sep in seps
    ensures Fields(a + [sep] + (b + [sep] + (c + [sep] + (d + [sep] + rest))), seps)
      == [a, b, c, d] + Fields(rest, seps)
  {
    var f := Fields(rest, seps);
    var r2 := c + [sep] + (d + [sep] + rest);
    TwoFieldsThen(c, d, sep, rest, seps);
    TwoFieldsThen(a, b, sep, r2, seps);
    assert [a, b] + ([c, d] + f) == [a, b, c, d] + f;
  }

  lemma TwoFieldsThen<T>(a: seq<T>, b: seq<T>, sep: T, rest: seq<T>, seps: set<T>)
    requires IsField(a, seps) && IsField(b, seps) && sep in seps
    ensures Fields(a + [sep] + (b + [sep] + rest), seps) == [a, b] + Fields(rest, seps)
  {
    FieldsOfFieldThen(b, sep, rest, seps);
    FieldsOfFieldThen(a, sep, b + [sep] + rest, seps);
  }

  lemma ExecTextShape(n: string, command: string)
    ensures "exec " + ("[workspace " + n + " silent] " + command)
      == "exec" + [' '] + ("[workspace" + [' '] + (n + [' '] + ("silent]" + [' '] + command)))
  {
    assert "exec " == "exec" + [' '];
    assert "[workspace " == "[workspace" + [' '];
    assert " silent] " == [' '] + "silent]" + [' '];
  }

  // ---------------------------------------------------------------------------
  // Matching

  /**
   * `available_clients.iter().position(|c| c.class == saved.class)`: the lowest
   * index of a client with exactly this class (case-sensitive), if any.
   */
  function FindByClass(clients: seq<Client>, windowClass: string): (r: Option<nat>)
    ensures r.Some? ==> r.value < |clients| && clients[r.value].windowClass == windowClass
    ensures r.Some? ==> forall j :: 0 <= j < r.value ==> clients[j].windowClass != windowClass
    ensures r.None? <==> forall j :: 0 <= j < |clients| ==> clients[j].windowClass != windowClass
  {
    if clients == [] then None
    else if clients[0].windowClass == windowClass then Some(0)
    else match FindByClass(clients[1..], windowClass)
      case None => None
      case Some(i) => Some(i + 1)
  }

  /** A freshly listed client that can stand for a launched saved window. */
  predicate IsLaunchedMatch(c: Client, saved: Client, restored: set<string>) {
    c.windowClass == saved.windowClass && c.workspace.id == saved.workspace.id && c.address !in restored
  }

  /**
   * The `find` of phase 2: the first client with the saved class and workspace
   * whose address has not been restored yet.
   */
  function FindLaunched(clients: seq<Client>, saved: Client, restored: set<string>): (r: Option<nat>)
    ensures r.Some? ==> r.value < |clients| && IsLaunchedMatch(clients[r.value], saved, restored)
    ensures r.Some? ==> forall j :: 0 <= j < r.value ==> !IsLaunchedMatch(clients[j], saved, restored)
    ensures r.None? <==> forall j :: 0 <= j < |clients| ==> !IsLaunchedMatch(clients[j], saved, restored)
  {
    if clients == [] then None
    else if IsLaunchedMatch(clients[0], saved, restored) then Some(0)
    else match FindLaunched(clients[1..], saved, restored)
      case None => None
      case Some(i) => Some(i + 1)
  }

  /** `Vec::remove`: the sequence without its element at `i`. */
  function RemoveAt<T>(s: seq<T>, i: nat): (r: seq<T>)
    requires i < |s|
    ensures |r| == |s| - 1
    ensures multiset(r) + multiset{s[i]} == multiset(s)
    ensures forall j :: 0 <= j < i ==> r[j] == s[j]
    ensures forall j :: i <= j < |r| ==> r[j] == s[j + 1]
  {
    assert s == s[..i] + [s[i]] + s[i + 1..];
    s[..i] + s[i + 1..]
  }

  // ---------------------------------------------------------------------------
  // The restore, as a specification

  /** The compositor as the restore sees it: two captures and its verdict on each dispatch. */
  datatype Compositor = Compositor(
    live: Result<SessionSnapshot, Error>,        // the capture before phase 1
    relaunched: Result<SessionSnapshot, Error>,  // the capture after the wait
    rejected: set<Argv>)                         // argument vectors it refuses

  /** A saved window and the live window that was positioned for it. */
  datatype Claim = Claim(saved: Client, live: Client)

  /**
   * The restore's variables: the unclaimed live windows, the restored addresses,
   * the saved windows whose launch was accepted; and, for the proofs, the claims
   * of each phase and the accepted dispatches in order.
   */
  datatype RestoreState = RestoreState(
    available: seq<Client>,
    restored: set<string>,
    pending: seq<Client>,
    claims: seq<Claim>,
    launches: seq<Claim>,
    log: seq<Argv>)

  function Initial(live: seq<Client>): RestoreState {
    RestoreState(live, {}, [], [], [], [])
  }

  datatype Progress = Running(st: RestoreState) | Aborted(st: RestoreState, error: Error)

  /**
   * One saved window in phase 1: claim the first live window of its class, remove
   * it from the pool and position it (a refused dispatch aborts the restore);
   * without one, launch it and queue it when the launch is accepted.
   */
  function MatchOrLaunch(st: RestoreState, saved: Client, rejected: set<Argv>): (p: Progress)
    ensures p.st.launches == st.launches && st.log <= p.st.log
    ensures p.Aborted? ==> FindByClass(st.available, saved.windowClass).Some?
  {
    match FindByClass(st.available, saved.windowClass)
    case Some(i) =>
      var current := st.available[i];
      var applied := RestoreWindowPosition(current, saved, rejected);
      var st1 := st.(available := RemoveAt(st.available, i),
                     claims := st.claims + [Claim(saved, current)],
                     log := st.log + applied.issued);
      if applied.failed.Some? then Aborted(st1, DispatchFailed(applied.failed.value))
      else Running(st1.(restored := st1.restored + {current.address}))
    case None =>
      if ExecArgs(saved) in rejected then Running(st)
      else Running(st.(pending := st.pending + [saved], log := st.log + [ExecArgs(saved)]))
  }

  /** Phase 1 over the saved windows in snapshot order, stopping at the first abort. */
  function Phase1(saved: seq<Client>, st: RestoreState, rejected: set<Argv>): (p: Progress)
    ensures p.st.launches == st.launches && st.log <= p.st.log
  {
    if saved == [] then Running(st)
    else match Phase1(saved[..|saved| - 1], st, rejected)
      case Aborted(s, e) => Aborted(s, e)
      case Running(s) => MatchOrLaunch(s, saved[|saved| - 1], rejected)
  }

  /**
   * One launched window in phase 2: position the first matching newClients client;
   * only a fully accepted positioning marks its address restored. A refusal is
   * reported and the phase goes on.
   */
  function PositionLaunched(st: RestoreState, saved: Client, newClients: seq<Client>, rejected: set<Argv>): (r: RestoreState)
    ensures r.available == st.available && r.pending == st.pending && r.claims == st.claims
    ensures st.restored <= r.restored && st.log <= r.log
  {
    match FindLaunched(newClients, saved, st.restored)
    case None => st
    case Some(i) =>
      var current := newClients[i];
      var applied := RestoreWindowPosition(current, saved, rejected);
      var st1 := st.(log := st.log + applied.issued);
      if applied.failed.Some? then st1
      else st1.(restored := st1.restored + {current.address}, launches := st1.launches + [Claim(saved, current)])
  }

  /** Phase 2 over the queued windows in the order they were launched. */
  function Phase2(pending: seq<Client>, newClients: seq<Client>, st: RestoreState, rejected: set<Argv>): (r: RestoreState)
    ensures r.available == st.available && r.pending == st.pending && r.claims == st.claims
    ensures st.restored <= r.restored && st.log <= r.log
  {
    if pending == [] then st
    else PositionLaunched(Phase2(pending[..|pending| - 1], newClients, st, rejected), pending[|pending| - 1], newClients, rejected)
  }

  /** Phase 1 over one more saved window continues from where the prefix left off. */
  lemma Phase1Step(saved: seq<Client>, i: nat, st: RestoreState, rejected: set<Argv>)
    requires i < |saved|
    ensures Phase1(saved[..i], st, rejected).Running? ==>
      Phase1(saved[..i + 1], st, rejected) == MatchOrLaunch(Phase1(saved[..i], st, rejected).st, saved[i], rejected)
  {
    assert saved[..i + 1][..i] == saved[..i];
  }

  /** Once phase 1 aborts, the windows after the failing one change nothing. */
  lemma {:induction false} Phase1AbortStops(saved: seq<Client>, i: nat, st: RestoreState, rejected: set<Argv>)
    requires i <= |saved| && Phase1(saved[..i], st, rejected).Aborted?
    ensures Phase1(saved, st, rejected) == Phase1(saved[..i], st, rejected)
    decreases |saved| - i
  {
    if i == |saved| {
      assert saved[..i] == saved;
    } else {
      var init := saved[..|saved| - 1];
      assert init[..i] == saved[..i];
      Phase1AbortStops(init, i, st, rejected);
      var p := Phase1(init, st, rejected);
      assert p.Aborted?;
      assert Phase1(saved, st, rejected) == Aborted(p.st, p.error);
    }
  }

  datatype Finish = Finish(st: RestoreState, result: Result<(), Error>)

  /**
   * The whole restore: a failed first capture or an aborted phase 1 is the error;
   * phase 2 runs, after one newClients capture, only when some launch is pending.
   */
  function RestoreSpec(snapshot: SessionSnapshot, hypr: Compositor): (f: Finish)
    ensures hypr.live.Err? ==> f.result == Err(hypr.live.error)
    ensures f.result.Ok? ==> hypr.live.Ok? && (f.st.pending != [] ==> hypr.relaunched.Ok?)
  {
    match hypr.live
    case Err(e) => Finish(Initial([]), Err(e))
    case Ok(now) =>
      match Phase1(snapshot.clients, Initial(now.clients), hypr.rejected)
      case Aborted(s, e) => Finish(s, Err(e))
      case Running(s) =>
        if s.pending == [] then Finish(s, Ok(()))
        else match hypr.relaunched
          case Err(e) => Finish(s, Err(e))
          case Ok(later) => Finish(Phase2(s.pending, later.clients, s, hypr.rejected), Ok(()))
  }

  /** A phase-1 abort ends the whole restore with its error; phase 2 never runs. */
  lemma RestoreAbortIsError(snapshot: SessionSnapshot, hypr: Compositor)
    requires hypr.live.Ok?
    requires Phase1(snapshot.clients, Initial(hypr.live.value.clients), hypr.rejected).Aborted?
    ensures var p := Phase1(snapshot.clients, Initial(hypr.live.value.clients), hypr.rejected);
      RestoreSpec(snapshot, hypr) == Finish(p.st, Err(p.error))
  {
  }

  /**
   * When phase 1 completes, the restore succeeds: at once when nothing was
   * launched, otherwise after phase 2 over the second capture, whose refusals
   * are only reported. Only a failed second capture is then an error.
   */
  lemma RestoreOutcome(snapshot: SessionSnapshot, hypr: Compositor)
    requires hypr.live.Ok?
    requires Phase1(snapshot.clients, Initial(hypr.live.value.clients), hypr.rejected).Running?
    ensures var p := Phase1(snapshot.clients, Initial(hypr.live.value.clients), hypr.rejected);
      var f := RestoreSpec(snapshot, hypr);
      && (p.st.pending == [] ==> f == Finish(p.st, Ok(())))
      && (p.st.pending != [] && hypr.relaunched.Err? ==> f == Finish(p.st, Err(hypr.relaunched.error)))
      && (p.st.pending != [] && hypr.relaunched.Ok? ==>
            f == Finish(Phase2(p.st.pending, hypr.relaunched.value.clients, p.st, hypr.rejected), Ok(())))
  {
  }

  // ---------------------------------------------------------------------------
  // What the restore guarantees

  /** The live windows of a list of claims, in claim order. */
  function Lives(cs: seq<Claim>): (r: seq<Client>)
    ensures |r| == |cs| && forall k :: 0 <= k < |cs| ==> r[k] == cs[k].live
  {
    seq(|cs|, k requires 0 <= k < |cs| => cs[k].live)
  }

  /** The addresses of the live windows of a list of claims. */
  function Addresses(cs: seq<Claim>): (r: set<string>)
    ensures forall k :: 0 <= k < |cs| ==> cs[k].live.address in r
    ensures forall a :: a in r ==> exists k :: 0 <= k < |cs| && cs[k].live.address == a
  {
    set k | 0 <= k < |cs| :: cs[k].live.address
  }

  /** No two claims position the same live address. */
  predicate DistinctLive(cs: seq<Claim>) {
    forall i, j :: 0 <= i < j < |cs| ==> cs[i].live.address != cs[j].live.address
  }

  /** No two windows of a capture share an address. */
  predicate DistinctAddresses(clients: seq<Client>) {
    forall i, j :: 0 <= i < j < |clients| ==> clients[i].address != clients[j].address
  }

  /**
   * What holds of every state phase 1 reaches: the pool and the claimed windows
   * together are exactly the live capture; each claim pairs windows of the same
   * class; every queued window was saved and its launch was accepted.
   */
  predicate Phase1Inv(live: seq<Client>, saved: seq<Client>, rejected: set<Argv>, st: RestoreState) {
    && multiset(st.available) + multiset(Lives(st.claims)) == multiset(live)
    && st.launches == []
    && |st.claims| + |st.pending| <= |saved|
    && (forall k :: 0 <= k < |st.claims| ==>
          st.claims[k].live.windowClass == st.claims[k].saved.windowClass && st.claims[k].saved in saved)
    && (forall k :: 0 <= k < |st.pending| ==> st.pending[k] in saved && ExecArgs(st.pending[k]) !in rejected)
  }

  /**
   * What one saved window does in phase 1: a matched window is positioned, its
   * accepted commands are logged, and a refused one aborts the restore with that
   * command as the error, the address then left unrestored; an unmatched window
   * is queued exactly when its launch is accepted.
   */
  lemma MatchOrLaunchEffect(st: RestoreState, saved: Client, rejected: set<Argv>)
    ensures var p := MatchOrLaunch(st, saved, rejected);
      match FindByClass(st.available, saved.windowClass)
      case Some(i) =>
        var a := RestoreWindowPosition(st.available[i], saved, rejected);
        && p.st.log == st.log + a.issued
        && (p.Aborted? <==> a.failed.Some?)
        && (p.Aborted? ==> p.error == DispatchFailed(a.failed.value) && p.st.restored == st.restored)
        && (p.Running? ==> p.st.restored == st.restored + {st.available[i].address})
      case None =>
        && p.Running?
        && p.st.pending == (if ExecArgs(saved) in rejected then st.pending else st.pending + [saved])
        && p.st.log == (if ExecArgs(saved) in rejected then st.log else st.log + [ExecArgs(saved)])
  {
  }

  /** What one phase-1 step changes, without the positioning details. */
  lemma MatchOrLaunchShape(st: RestoreState, next: Client, rejected: set<Argv>)
    ensures var p := MatchOrLaunch(st, next, rejected);
      && p.st.launches == st.launches
      && match FindByClass(st.available, next.windowClass)
         case Some(i) =>
           && p.st.available == RemoveAt(st.available, i)
           && p.st.claims == st.claims + [Claim(next, st.available[i])]
           && p.st.pending == st.pending
           && (p.Running? ==> p.st.restored == st.restored + {st.available[i].address})
         case None =>
           && p.Running?
           && p.st.available == st.available && p.st.claims == st.claims && p.st.restored == st.restored
           && (p.st.pending == st.pending || (p.st.pending == st.pending + [next] && ExecArgs(next) !in rejected))
  {
  }

  lemma MatchOrLaunchInv(live: seq<Client>, saved: seq<Client>, rejected: set<Argv>, st: RestoreState)
    requires saved != [] && Phase1Inv(live, saved[..|saved| - 1], rejected, st)
    requires st.restored == Addresses(st.claims)
    ensures var p := MatchOrLaunch(st, saved[|saved| - 1], rejected);
      Phase1Inv(live, saved, rejected, p.st) && (p.Running? ==> p.st.restored == Addresses(p.st.claims))
  {
    var next := saved[|saved| - 1];
    assert next in saved;
    assert forall c :: c in saved[..|saved| - 1] ==> c in saved;
    var p := MatchOrLaunch(st, next, rejected);
    MatchOrLaunchShape(st, next, rejected);
    match FindByClass(st.available, next.windowClass)
    case Some(i) =>
      ClaimKeepsInv(live, saved, rejected, st, i, p);
    case None =>
      assert p.st.pending == st.pending || p.st.pending == st.pending + [next];
  }

  lemma ClaimKeepsInv(live: seq<Client>, saved: seq<Client>, rejected: set<Argv>, st: RestoreState, i: nat, p: Progress)
    requires saved != [] && Phase1Inv(live, saved[..|saved| - 1], rejected, st)
    requires st.restored == Addresses(st.claims)
    requires i < |st.available| && st.available[i].windowClass == saved[|saved| - 1].windowClass
    requires p.st.available == RemoveAt(st.available, i) && p.st.pending == st.pending
    requires p.st.claims == st.claims + [Claim(saved[|saved| - 1], st.available[i])]
    requires p.st.launches == st.launches
    requires p.Running? ==> p.st.restored == st.restored + {st.available[i].address}
    ensures Phase1Inv(live, saved, rejected, p.st) && (p.Running? ==> p.st.restored == Addresses(p.st.claims))
  {
    var next := saved[|saved| - 1];
    var current := st.available[i];
    assert next in saved;
    assert forall c :: c in saved[..|saved| - 1] ==> c in saved;
    PartitionAfterClaim(live, st.available, st.claims, i, next);
    AddressesSnoc(st.claims, Claim(next, current));
  }

  lemma PartitionAfterClaim(live: seq<Client>, available: seq<Client>, cs: seq<Claim>, i: nat, next: Client)
    requires i < |available| && multiset(available) + multiset(Lives(cs)) == multiset(live)
    ensures multiset(RemoveAt(available, i)) + multiset(Lives(cs + [Claim(next, available[i])])) == multiset(live)
  {
    assert Lives(cs + [Claim(next, available[i])]) == Lives(cs) + [available[i]];
  }

  lemma AddressesSnoc(cs: seq<Claim>, c: Claim)
    ensures Addresses(cs + [c]) == Addresses(cs) + {c.live.address}
  {
    var both := cs + [c];
    forall a | a in Addresses(both) ensures a in Addresses(cs) + {c.live.address} {
      var k :| 0 <= k < |both| && both[k].live.address == a;
      if k < |cs| {
        assert both[k] == cs[k];
      }
    }
    forall a | a in Addresses(cs) ensures a in Addresses(both) {
      var k :| 0 <= k < |cs| && cs[k].live.address == a;
      assert both[k] == cs[k];
    }
    assert both[|cs|] == c;
  }

  /** Phase 1 keeps `Phase1Inv`; while it runs, the restored set is the claimed addresses. */
  lemma {:induction false} Phase1Invariant(saved: seq<Client>, live: seq<Client>, rejected: set<Argv>)
    ensures var p := Phase1(saved, Initial(live), rejected);
      Phase1Inv(live, saved, rejected, p.st) && (p.Running? ==> p.st.restored == Addresses(p.st.claims))
  {
    if saved == [] {
      assert Lives([]) == [];
    } else {
      var init := saved[..|saved| - 1];
      Phase1Invariant(init, live, rejected);
      var q := Phase1(init, Initial(live), rejected);
      if q.Running? {
        MatchOrLaunchInv(live, saved, rejected, q.st);
      } else {
        assert Phase1(saved, Initial(live), rejected) == q;
        assert forall c :: c in init ==> c in saved;
      }
    }
  }

  /** Claims taken from a pool of distinct addresses position distinct windows. */
  lemma {:induction false} ClaimsDistinct(live: seq<Client>, available: seq<Client>, cs: seq<Claim>)
    requires DistinctAddresses(live)
    requires multiset(available) + multiset(Lives(cs)) == multiset(live)
    ensures DistinctLive(cs)
  {
    var lives := Lives(cs);
    forall i, j | 0 <= i < j < |cs| ensures cs[i].live.address != cs[j].live.address {
      if cs[i].live.address == cs[j].live.address {
        var a := cs[i].live;
        assert lives[i] == a && lives[j].address == a.address;
        assert a in multiset(live) by { assert a in multiset(lives); }
        assert lives[j] in multiset(live) by { assert lives[j] in multiset(lives); }
        var x :| 0 <= x < |live| && live[x] == a;
        var y :| 0 <= y < |live| && live[y] == lives[j];
        assert x == y;
        assert lives[j] == a;
        TwiceInMultiset(lives, i, j);
        OnceInDistinct(live, x);
        assert false;
      }
    }
  }

  lemma TwiceInMultiset(s: seq<Client>, i: nat, j: nat)
    requires i < j < |s| && s[i] == s[j]
    ensures multiset(s)[s[i]] >= 2
  {
    assert s == s[..j] + [s[j]] + s[j + 1..];
    assert s[..j] == s[..i] + [s[i]] + s[i + 1..j];
  }

  lemma {:induction false} OnceInDistinct(s: seq<Client>, x: nat)
    requires x < |s| && DistinctAddresses(s)
    ensures multiset(s)[s[x]] == 1
  {
    if |s| > 0 {
      var t := s[1..];
      assert s == [s[0]] + t;
      assert DistinctAddresses(t) by {
        forall i, j | 0 <= i < j < |t| ensures t[i].address != t[j].address {
          assert t[i] == s[i + 1] && t[j] == s[j + 1];
        }
      }
      if x == 0 {
        forall k | 0 <= k < |t| ensures t[k] != s[0] {
          assert t[k] == s[k + 1];
          assert s[k + 1].address != s[0].address;
        }
        assert s[0] !in t;
      } else {
        OnceInDistinct(t, x - 1);
        assert t[x - 1] == s[x];
        assert s[0] != s[x] by { assert s[0].address != s[x].address; }
      }
    }
  }

  /**
   * What holds of every state phase 2 reaches from `st0`: only the restored set,
   * the launches and the log change; each positioned window is a new client of
   * the saved class on the saved workspace that phase 1 did not restore, no
   * address is positioned twice, and the restored set grows by exactly those.
   */
  predicate Phase2Inv(st0: RestoreState, pending: seq<Client>, newClients: seq<Client>, r: RestoreState) {
    && r.available == st0.available && r.pending == st0.pending && r.claims == st0.claims
    && |r.launches| <= |pending|
    && r.restored == st0.restored + Addresses(r.launches)
    && DistinctLive(r.launches)
    && (forall k :: 0 <= k < |r.launches| ==>
          && r.launches[k].live.address !in st0.restored
          && r.launches[k].live in newClients
          && r.launches[k].saved in pending
          && r.launches[k].live.windowClass == r.launches[k].saved.windowClass
          && r.launches[k].live.workspace.id == r.launches[k].saved.workspace.id)
  }

  /**
   * What one queued window does in phase 2: the first matching new window is
   * positioned and its accepted commands logged; its address is restored only
   * when every command was accepted. Without a match nothing changes.
   */
  lemma PositionLaunchedEffect(st: RestoreState, saved: Client, newClients: seq<Client>, rejected: set<Argv>)
    ensures var r := PositionLaunched(st, saved, newClients, rejected);
      match FindLaunched(newClients, saved, st.restored)
      case None => r == st
      case Some(i) =>
        var a := RestoreWindowPosition(newClients[i], saved, rejected);
        && r.log == st.log + a.issued
        && r.restored == (if a.failed.None? then st.restored + {newClients[i].address} else st.restored)
  {
  }

  /** What one phase-2 step changes, without the positioning details. */
  lemma PositionLaunchedShape(st: RestoreState, saved: Client, newClients: seq<Client>, rejected: set<Argv>)
    ensures var r := PositionLaunched(st, saved, newClients, rejected);
      && r.available == st.available && r.pending == st.pending && r.claims == st.claims
      && ((r.launches == st.launches && r.restored == st.restored)
          || exists i :: 0 <= i < |newClients| && IsLaunchedMatch(newClients[i], saved, st.restored)
               && r.launches == st.launches + [Claim(saved, newClients[i])]
               && r.restored == st.restored + {newClients[i].address})
  {
    match FindLaunched(newClients, saved, st.restored)
    case None =>
    case Some(i) =>
  }

  lemma LaunchKeepsInv(st0: RestoreState, pending: seq<Client>, newClients: seq<Client>, r: RestoreState, r1: RestoreState, i: nat)
    requires pending != [] && Phase2Inv(st0, pending[..|pending| - 1], newClients, r)
    requires i < |newClients| && IsLaunchedMatch(newClients[i], pending[|pending| - 1], r.restored)
    requires r1 == r.(launches := r.launches + [Claim(pending[|pending| - 1], newClients[i])],
                      restored := r.restored + {newClients[i].address}, log := r1.log)
    ensures Phase2Inv(st0, pending, newClients, r1)
  {
    var c := Claim(pending[|pending| - 1], newClients[i]);
    assert pending[|pending| - 1] in pending;
    assert forall x :: x in pending[..|pending| - 1] ==> x in pending;
    assert r1.restored == st0.restored + Addresses(r1.launches) by {
      AddressesSnoc(r.launches, c);
    }
    assert DistinctLive(r1.launches) by {
      AddressesSnoc(r.launches, c);
      assert c.live.address !in Addresses(r.launches);
    }
    forall k | 0 <= k < |r.launches| ensures r1.launches[k] == r.launches[k] { }
  }

  lemma PositionLaunchedInv(st0: RestoreState, pending: seq<Client>, newClients: seq<Client>, rejected: set<Argv>, r: RestoreState)
    requires pending != [] && Phase2Inv(st0, pending[..|pending| - 1], newClients, r)
    ensures Phase2Inv(st0, pending, newClients, PositionLaunched(r, pending[|pending| - 1], newClients, rejected))
  {
    var saved := pending[|pending| - 1];
    var r1 := PositionLaunched(r, saved, newClients, rejected);
    PositionLaunchedShape(r, saved, newClients, rejected);
    assert forall x :: x in pending[..|pending| - 1] ==> x in pending;
    if r1.launches != r.launches {
      var i :| 0 <= i < |newClients| && IsLaunchedMatch(newClients[i], saved, r.restored)
        && r1.launches == r.launches + [Claim(saved, newClients[i])]
        && r1.restored == r.restored + {newClients[i].address};
      LaunchKeepsInv(st0, pending, newClients, r, r1, i);
    }
  }

  /** Phase 2 keeps `Phase2Inv`. */
  lemma {:induction false} Phase2Invariant(pending: seq<Client>, newClients: seq<Client>, st0: RestoreState, rejected: set<Argv>)
    requires st0.launches == []
    ensures Phase2Inv(st0, pending, newClients, Phase2(pending, newClients, st0, rejected))
  {
    if pending == [] {
      assert Addresses([]) == {};
    } else {
      Phase2Invariant(pending[..|pending| - 1], newClients, st0, rejected);
      PositionLaunchedInv(st0, pending, newClients, rejected, Phase2(pending[..|pending| - 1], newClients, st0, rejected));
    }
  }

  lemma AddressesAppend(a: seq<Claim>, b: seq<Claim>)
    ensures Addresses(a + b) == Addresses(a) + Addresses(b)
  {
    var both := a + b;
    forall x | x in Addresses(both) ensures x in Addresses(a) + Addresses(b) {
      var k :| 0 <= k < |both| && both[k].live.address == x;
      if k < |a| {
        assert both[k] == a[k];
      } else {
        assert both[k] == b[k - |a|];
      }
    }
    forall x | x in Addresses(a) + Addresses(b) ensures x in Addresses(both) {
      if x in Addresses(a) {
        var k :| 0 <= k < |a| && a[k].live.address == x;
        assert both[k] == a[k];
      } else {
        var k :| 0 <= k < |b| && b[k].live.address == x;
        assert both[|a| + k] == b[k];
      }
    }
  }

  lemma DistinctAppend(a: seq<Claim>, b: seq<Claim>)
    requires DistinctLive(a) && DistinctLive(b)
    requires forall k :: 0 <= k < |b| ==> b[k].live.address !in Addresses(a)
    ensures DistinctLive(a + b)
  {
    var both := a + b;
    forall i, j | 0 <= i < j < |both| ensures both[i].live.address != both[j].live.address {
      if j < |a| {
        assert both[i] == a[i] && both[j] == a[j];
      } else if i >= |a| {
        assert both[i] == b[i - |a|] && both[j] == b[j - |a|];
      } else {
        assert both[i] == a[i] && both[j] == b[j - |a|];
      }
    }
  }

  /**
   * The point of the restored set: over both phases no live address is
   * successfully positioned twice, provided the first capture lists each address once; and
   * a restore that succeeds has restored exactly the addresses it positioned.
   */
  lemma RestoreClaimsEachAddressOnce(snapshot: SessionSnapshot, hypr: Compositor)
    requires hypr.live.Ok? ==> DistinctAddresses(hypr.live.value.clients)
    ensures var f := RestoreSpec(snapshot, hypr);
      && DistinctLive(f.st.claims + f.st.launches)
      && (f.result.Ok? ==> f.st.restored == Addresses(f.st.claims + f.st.launches))
  {
    var f := RestoreSpec(snapshot, hypr);
    if hypr.live.Err? {
      assert f.st == Initial([]);
      assert f.st.claims + f.st.launches == [];
    } else {
      var live := hypr.live.value.clients;
      var p := Phase1(snapshot.clients, Initial(live), hypr.rejected);
      Phase1Invariant(snapshot.clients, live, hypr.rejected);
      ClaimsDistinct(live, p.st.available, p.st.claims);
      assert p.st.claims + [] == p.st.claims;
      if p.Running? && p.st.pending != [] && hypr.relaunched.Ok? {
        var later := hypr.relaunched.value.clients;
        Phase2Invariant(p.st.pending, later, p.st, hypr.rejected);
        var r := Phase2(p.st.pending, later, p.st, hypr.rejected);
        assert f.st == r;
        DistinctAppend(r.claims, r.launches);
        AddressesAppend(r.claims, r.launches);
      }
    }
  }

  /** Each saved window paired with itself. */
  function SelfClaims(clients: seq<Client>): (r: seq<Claim>)
    ensures |r| == |clients| && forall k :: 0 <= k < |clients| ==> r[k] == Claim(clients[k], clients[k])
  {
    seq(|clients|, k requires 0 <= k < |clients| => Claim(clients[k], clients[k]))
  }

  /** The state after restoring the first `i` windows of a session onto themselves. */
  function OntoItself(saved: seq<Client>, i: nat): RestoreState
    requires i <= |saved|
  {
    RestoreState(saved[i..], Addresses(SelfClaims(saved[..i])), [], SelfClaims(saved[..i]), [], [])
  }

  lemma {:induction false} Phase1OntoItself(saved: seq<Client>, i: nat, rejected: set<Argv>)
    requires i <= |saved|
    requires forall k :: 0 <= k < |saved| ==> !saved[k].floating
    ensures Phase1(saved[..i], Initial(saved), rejected) == Running(OntoItself(saved, i))
  {
    if i == 0 {
      assert SelfClaims([]) == [];
      assert Addresses([]) == {};
      assert saved[..0] == [];
    } else {
      Phase1OntoItself(saved, i - 1, rejected);
      OntoItselfStep(saved, i - 1, rejected);
    }
  }

  lemma OntoItselfStep(saved: seq<Client>, j: nat, rejected: set<Argv>)
    requires j < |saved| && !saved[j].floating
    requires Phase1(saved[..j], Initial(saved), rejected) == Running(OntoItself(saved, j))
    ensures Phase1(saved[..j + 1], Initial(saved), rejected) == Running(OntoItself(saved, j + 1))
  {
    var st := OntoItself(saved, j);
    var c := saved[j];
    assert Phase1(saved[..j + 1], Initial(saved), rejected) == MatchOrLaunch(st, c, rejected) by {
      Phase1Step(saved, j, Initial(saved), rejected);
    }
    var next := st.(available := st.available[1..], claims := st.claims + [Claim(c, c)],
                    restored := st.restored + {c.address});
    assert MatchOrLaunch(st, c, rejected) == Running(next) by {
      assert st.available == saved[j..];
      MatchOrLaunchSelf(st, c, rejected);
    }
    assert next == OntoItself(saved, j + 1) by {
      OntoItselfNext(saved, j);
    }
  }

  lemma OntoItselfNext(saved: seq<Client>, j: nat)
    requires j < |saved|
    ensures var st := OntoItself(saved, j);
      st.(available := st.available[1..], claims := st.claims + [Claim(saved[j], saved[j])],
          restored := st.restored + {saved[j].address})
      == OntoItself(saved, j + 1)
  {
    var before := SelfClaims(saved[..j]);
    assert saved[j..][1..] == saved[j + 1..];
    SelfClaimsSnoc(saved, j);
    AddressesSnoc(before, Claim(saved[j], saved[j]));
  }

  lemma SelfClaimsSnoc(saved: seq<Client>, j: nat)
    requires j < |saved|
    ensures SelfClaims(saved[..j + 1]) == SelfClaims(saved[..j]) + [Claim(saved[j], saved[j])]
  {
  }

  /** A tiled window at the head of the pool claims itself and sends nothing. */
  lemma MatchOrLaunchSelf(st: RestoreState, c: Client, rejected: set<Argv>)
    requires st.available != [] && st.available[0] == c && !c.floating
    ensures MatchOrLaunch(st, c, rejected)
      == Running(st.(available := st.available[1..], claims := st.claims + [Claim(c, c)],
                     restored := st.restored + {c.address}))
  {
    assert FindByClass(st.available, c.windowClass) == Some(0);
    AlreadyPlacedTiledIsQuiet(c, c);
    var applied := RestoreWindowPosition(c, c, rejected);
    assert applied.issued == [] && applied.failed.None?;
    assert st.log + applied.issued == st.log;
    assert RemoveAt(st.available, 0) == st.available[1..];
  }

  /**
   * Restoring a session onto the very windows it was saved from, all tiled,
   * pairs every window with itself, sends nothing and launches nothing.
   */
  lemma RestoreOntoItself(snapshot: SessionSnapshot, hypr: Compositor)
    requires hypr.live.Ok? && hypr.live.value.clients == snapshot.clients
    requires forall k :: 0 <= k < |snapshot.clients| ==> !snapshot.clients[k].floating
    ensures var f := RestoreSpec(snapshot, hypr);
      && f.result == Ok(())
      && f.st.log == [] && f.st.pending == [] && f.st.available == []
      && f.st.claims == SelfClaims(snapshot.clients)
  {
    var saved := snapshot.clients;
    Phase1OntoItself(saved, |saved|, hypr.rejected);
    assert saved[..|saved|] == saved;
    assert saved[|saved|..] == [];
  }

  /** The windows whose launch the compositor accepts, in snapshot order. */
  function AcceptedLaunches(saved: seq<Client>, rejected: set<Argv>): (r: seq<Client>)
    ensures |r| <= |saved|
    ensures forall k :: 0 <= k < |r| ==> r[k] in saved && ExecArgs(r[k]) !in rejected
  {
    if saved == [] then []
    else
      var init := AcceptedLaunches(saved[..|saved| - 1], rejected);
      assert forall c :: c in saved[..|saved| - 1] ==> c in saved;
      if ExecArgs(saved[|saved| - 1]) in rejected then init else init + [saved[|saved| - 1]]
  }

  /** Each saved window is launched at most once. */
  lemma {:induction false} AcceptedLaunchesAtMostOnce(saved: seq<Client>, rejected: set<Argv>)
    ensures multiset(AcceptedLaunches(saved, rejected)) <= multiset(saved)
  {
    if saved != [] {
      var front, last := saved[..|saved| - 1], saved[|saved| - 1];
      var a, r := AcceptedLaunches(front, rejected), AcceptedLaunches(saved, rejected);
      var keep := ExecArgs(last) !in rejected;
      assert r == if keep then a + [last] else a by {
        AcceptedLaunchesSnoc(saved, rejected);
      }
      assert multiset(r) <= multiset(front + [last]) by {
        AcceptedLaunchesAtMostOnce(front, rejected);
        SubMultisetSnoc(a, front, last, keep);
      }
      assert front + [last] == saved;
    }
  }

  lemma AcceptedLaunchesSnoc(saved: seq<Client>, rejected: set<Argv>)
    requires saved != []
    ensures var front, last := saved[..|saved| - 1], saved[|saved| - 1];
      AcceptedLaunches(saved, rejected)
        == if ExecArgs(last) !in rejected then AcceptedLaunches(front, rejected) + [last] else AcceptedLaunches(front, rejected)
  {
  }

  lemma SubMultisetSnoc<T>(a: seq<T>, b: seq<T>, x: T, keep: bool)
    requires multiset(a) <= multiset(b)
    ensures multiset(if keep then a + [x] else a) <= multiset(b + [x])
  {
    assert multiset(b + [x]) == multiset(b) + multiset{x};
    if keep {
      assert multiset(a + [x]) == multiset(a) + multiset{x};
    }
  }

  /** Every saved window whose launch is accepted is among the launches. */
  lemma {:induction false} AcceptedLaunchesComplete(saved: seq<Client>, rejected: set<Argv>, k: nat)
    requires k < |saved| && ExecArgs(saved[k]) !in rejected
    ensures saved[k] in AcceptedLaunches(saved, rejected)
  {
    var front := saved[..|saved| - 1];
    if k < |front| {
      AcceptedLaunchesComplete(front, rejected, k);
      assert saved[k] == front[k];
    }
  }

  /**
   * With no live windows, phase 1 launches every saved window and queues each
   * one whose launch was accepted; the log is exactly those launches.
   */
  lemma {:induction false} NothingLiveLaunchesAll(saved: seq<Client>, rejected: set<Argv>)
    ensures var launched := AcceptedLaunches(saved, rejected);
      Phase1(saved, Initial([]), rejected)
        == Running(RestoreState([], {}, launched, [], [], seq(|launched|, k requires 0 <= k < |launched| => ExecArgs(launched[k]))))
  {
    if saved != [] {
      var init := saved[..|saved| - 1];
      NothingLiveLaunchesAll(init, rejected);
      var before := AcceptedLaunches(init, rejected);
      var next := saved[|saved| - 1];
      assert FindByClass([], next.windowClass) == None;
      var after := before + [next];
      assert seq(|after|, k requires 0 <= k < |after| => ExecArgs(after[k]))
        == seq(|before|, k requires 0 <= k < |before| => ExecArgs(before[k])) + [ExecArgs(next)];
    }
  }

  // ---------------------------------------------------------------------------
  // The restore, as the program runs it

  class Restorer {
    const hypr: Compositor
    var available: seq<Client>
    var restored: set<string>
    var pending: seq<Client>
    ghost var claims: seq<Claim>
    ghost var launches: seq<Claim>
    ghost var log: seq<Argv>

    ghost function State(): RestoreState
      reads this
    {
      RestoreState(available, restored, pending, claims, launches, log)
    }

    constructor (hypr: Compositor)
      ensures this.hypr == hypr && State() == Initial([])
    {
      this.hypr := hypr;
      available, restored, pending := [], {}, [];
      claims, launches, log := [], [], [];
    }

    /** The body of the phase-1 loop for one saved window. */
    method ClaimOrLaunch(saved: Client) returns (err: Option<Error>)
      modifies this
      ensures MatchOrLaunch(old(State()), saved, hypr.rejected)
        == if err.None? then Running(State()) else Aborted(State(), err.value)
    {
      var index := FindByClass(available, saved.windowClass);
      if index.Some? {
        var current := available[index.value];
        available := RemoveAt(available, index.value);
        claims := claims + [Claim(saved, current)];
        var applied := RestoreWindowPosition(current, saved, hypr.rejected);
        log := log + applied.issued;
        if applied.failed.Some? {
          return Some(DispatchFailed(applied.failed.value));
        }
        restored := restored + {current.address};
        return None;
      }
      var command := LaunchCommand(saved);
      var execArg := ExecRule(saved.workspace.id, command);
      var argv := ["exec", execArg];
      if argv !in hypr.rejected {
        pending := pending + [saved];
        log := log + [argv];
      }
      return None;
    }

    /** The body of the phase-2 loop for one launched window. */
    method PositionOne(saved: Client, newClients: seq<Client>)
      modifies this
      ensures State() == PositionLaunched(old(State()), saved, newClients, hypr.rejected)
    {
      var index := FindLaunched(newClients, saved, restored);
      if index.Some? {
        var current := newClients[index.value];
        var applied := RestoreWindowPosition(current, saved, hypr.rejected);
        log := log + applied.issued;
        if applied.failed.None? {
          restored := restored + {current.address};
          launches := launches + [Claim(saved, current)];
        }
      }
    }

    /** The phase-1 loop over the saved windows, from a fresh pool of live windows. */
    method MatchAll(saved: seq<Client>, live: seq<Client>) returns (err: Option<Error>)
      modifies this
      ensures Phase1(saved, Initial(live), hypr.rejected)
        == if err.None? then Running(State()) else Aborted(State(), err.value)
    {
      available, restored, pending := live, {}, [];
      claims, launches, log := [], [], [];
      for i := 0 to |saved|
        invariant Phase1(saved[..i], Initial(live), hypr.rejected) == Running(State())
      {
        Phase1Step(saved, i, Initial(live), hypr.rejected);
        err := ClaimOrLaunch(saved[i]);
        if err.Some? {
          Phase1AbortStops(saved, i + 1, Initial(live), hypr.rejected);
          return;
        }
      }
      assert saved[..|saved|] == saved;
      return None;
    }

    /** The phase-2 loop over the launched windows, against the second capture. */
    method PositionAll(launched: seq<Client>, newClients: seq<Client>)
      modifies this
      ensures State() == Phase2(launched, newClients, old(State()), hypr.rejected)
    {
      ghost var start := State();
      for i := 0 to |launched|
        invariant State() == Phase2(launched[..i], newClients, start, hypr.rejected)
      {
        assert launched[..i + 1][..i] == launched[..i];
        PositionOne(launched[i], newClients);
      }
      assert launched[..|launched|] == launched;
    }

    /** `restore_session` against the compositor this restorer was given. */
    method RestoreSession(snapshot: SessionSnapshot) returns (r: Result<(), Error>)
      modifies this
      ensures Finish(State(), r) == RestoreSpec(snapshot, hypr)
    {
      if hypr.live.Err? {
        available, restored, pending := [], {}, [];
        claims, launches, log := [], [], [];
        return Err(hypr.live.error);
      }
      var err := MatchAll(snapshot.clients, hypr.live.value.clients);
      if err.Some? {
        return Err(err.value);
      }
      if pending != [] {
        if hypr.relaunched.Err? {
          return Err(hypr.relaunched.error);
        }
        PositionAll(pending, hypr.relaunched.value.clients);
      }
      return Ok(());
    }
  }
}

=== FILE: session.dfy ===
/**
 * The session manager: filtering ignored windows out of a capture before it is
 * saved, the file name a save chooses, and listing the saved sessions newest
 * first.
 */
module Session {
  import opened Wrappers
  import opened Text
  import opened HyprCommands

  // ---------------------------------------------------------------------------
  // Configuration

  datatype Config = Config(sessionDir: string, ignoredClasses: seq<string>)

  // ---------------------------------------------------------------------------
  // Filtering ignored windows (`snapshot`)

  /** `retain`: the clients whose class is not ignored, in their original order. */
  function Retained(clients: seq<Client>, ignored: seq<string>): (kept: seq<Client>)
    ensures |kept| <= |clients|
    ensures forall k :: 0 <= k < |kept| ==> kept[k].windowClass !in ignored && kept[k] in clients
  {
    if clients == [] then []
    else
      var init := clients[..|clients| - 1];
      var last := clients[|clients| - 1];
      assert forall c :: c in init ==> c in clients;
      Retained(init, ignored) + if last.windowClass in ignored then [] else [last]
  }

  /** The number of clients whose class is ignored. */
  function IgnoredCount(clients: seq<Client>, ignored: seq<string>): nat {
    if clients == [] then 0
    else IgnoredCount(clients[..|clients| - 1], ignored) + if clients[|clients| - 1].windowClass in ignored then 1 else 0
  }

  /** Filtering distributes over concatenation: it keeps the relative order. */
  lemma {:induction false} RetainedAppend(a: seq<Client>, b: seq<Client>, ignored: seq<string>)
    ensures Retained(a + b, ignored) == Retained(a, ignored) + Retained(b, ignored)
    decreases |b|
  {
    if b == [] {
      assert a + b == a;
    } else {
      var init := b[..|b| - 1];
      RetainedAppend(a, init, ignored);
      assert (a + b)[..|a + b| - 1] == a + init;
      assert (a + b)[|a + b| - 1] == b[|b| - 1];
    }
  }

  /** Every client whose class is not ignored survives the filter. */
  lemma {:induction false} RetainedKeepsOthers(clients: seq<Client>, ignored: seq<string>, k: nat)
    requires k < |clients| && clients[k].windowClass !in ignored
    ensures clients[k] in Retained(clients, ignored)
  {
    var c := clients[k];
    assert clients == clients[..k] + [c] + clients[k + 1..];
    RetainedAppend(clients[..k] + [c], clients[k + 1..], ignored);
    RetainedAppend(clients[..k], [c], ignored);
    assert [c][..0] == [];
    assert Retained([c], ignored) == [c];
  }

  /** What the filter removes is exactly the ignored clients. */
  lemma {:induction false} FilteredCountIsIgnored(clients: seq<Client>, ignored: seq<string>)
    ensures |clients| - |Retained(clients, ignored)| == IgnoredCount(clients, ignored)
  {
    if clients != [] {
      FilteredCountIsIgnored(clients[..|clients| - 1], ignored);
    }
  }

  /** A capture without ignored windows is saved whole. */
  lemma {:induction false} RetainedNothingIgnored(clients: seq<Client>, ignored: seq<string>)
    requires forall k :: 0 <= k < |clients| ==> clients[k].windowClass !in ignored
    ensures Retained(clients, ignored) == clients
  {
    if clients != [] {
      var init := clients[..|clients| - 1];
      RetainedNothingIgnored(init, ignored);
      assert init + [clients[|clients| - 1]] == clients;
    }
  }

  /** Filtering twice is filtering once. */
  lemma RetainedIdempotent(clients: seq<Client>, ignored: seq<string>)
    ensures Retained(Retained(clients, ignored), ignored) == Retained(clients, ignored)
  {
    RetainedNothingIgnored(Retained(clients, ignored), ignored);
  }

  /**
   * The `retain` in place: compact the kept clients to the front of a buffer,
   * then count the removed ones as the difference in length.
   */
  method FilterIgnored(clients: seq<Client>, ignored: seq<string>) returns (kept: seq<Client>, filteredCount: nat)
    ensures kept == Retained(clients, ignored)
    ensures filteredCount == IgnoredCount(clients, ignored)
  {
    var a := new Client[|clients|](i requires 0 <= i < |clients| => clients[i]);
    var w := 0;
    for r := 0 to a.Length
      invariant w <= r
      invariant a[..w] == Retained(clients[..r], ignored)
      invariant a[r..] == clients[r..]
    {
      RetainedStep(clients, r, ignored);
      ghost var before := a[..w];
      assert a[r] == clients[r];
      if a[r].windowClass !in ignored {
        a[w] := a[r];
        assert a[..w + 1] == before + [clients[r]];
        w := w + 1;
      }
      assert a[r + 1..] == clients[r + 1..];
    }
    assert clients[..a.Length] == clients;
    kept := a[..w];
    filteredCount := |clients| - w;
    FilteredCountIsIgnored(clients, ignored);
  }

  lemma RetainedStep(clients: seq<Client>, r: nat, ignored: seq<string>)
    requires r < |clients|
    ensures Retained(clients[..r + 1], ignored)
      == Retained(clients[..r], ignored) + if clients[r].windowClass in ignored then [] else [clients[r]]
  {
    assert clients[..r + 1][..r] == clients[..r];
  }

  /** What a snapshot saves: where, which windows, and how many were dropped. */
  datatype Saved = Saved(path: string, snapshot: SessionSnapshot, filteredCount: nat)

  /**
   * `snapshot`: a failed capture is the error; otherwise the ignored windows are
   * dropped and the rest is saved under the timestamped name.
   */
  method Snapshot(config: Config, captured: Result<SessionSnapshot, Error>, timestamp: string) returns (r: Result<Saved, Error>)
    ensures captured.Err? ==> r == Err(captured.error)
    ensures captured.Ok? ==> r.Ok? && r.value.path == SessionPath(config.sessionDir, timestamp)
    ensures captured.Ok? ==> r.value.snapshot == captured.value.(clients := Retained(captured.value.clients, config.ignoredClasses))
    ensures captured.Ok? ==> r.value.filteredCount == IgnoredCount(captured.value.clients, config.ignoredClasses)
  {
    if captured.Err? {
      return Err(captured.error);
    }
    var state := captured.value;
    var kept, filteredCount := FilterIgnored(state.clients, config.ignoredClasses);
    state := state.(clients := kept);
    var path := SaveToDisk(config, timestamp);
    return Ok(Saved(path, state, filteredCount));
  }

  // ---------------------------------------------------------------------------
  // File names and paths (`save_to_disk`)

  /** The file a save writes: `session_<timestamp>.json`. */
  function SessionFileName(timestamp: string): (name: string)
    ensures |name| == |timestamp| + 13
    ensures name[..8] == "session_" && name[|name| - 5..] == ".json"
    ensures name[8..|name| - 5] == timestamp
  {
    "session_" + timestamp + ".json"
  }

  /**
   * `Path::join` of a relative name: a separator goes between the two unless the
   * directory is empty or already ends in one; an absolute name replaces the directory.
   */
  function JoinPath(dir: string, name: string): (path: string)
    ensures name != [] && name[0] == '/' ==> path == name
    ensures (name == [] || name[0] != '/') ==>
      |path| >= |dir| + |name| && path[|path| - |name|..] == name && path[..|dir|] == dir
    ensures (name == [] || name[0] != '/') ==> path == dir + name || path == dir + "/" + name
  {
    if name != [] && name[0] == '/' then name
    else if dir == [] || dir[|dir| - 1] == '/' then dir + name
    else dir + "/" + name
  }

  /** `save_to_disk`: the path of the new session file inside the session directory. */
  method SaveToDisk(config: Config, timestamp: string) returns (path: string)
    ensures path == SessionPath(config.sessionDir, timestamp)
  {
    var filename := "session_" + timestamp + ".json";
    path := JoinPath(config.sessionDir, filename);
  }

  function SessionPath(dir: string, timestamp: string): (path: string)
    ensures StartsWith(path, dir) && EndsWith(path, SessionFileName(timestamp))
    ensures path == dir + SessionFileName(timestamp) || path == dir + "/" + SessionFileName(timestamp)
  {
    JoinPath(dir, SessionFileName(timestamp))
  }

  /** The index of the last `.` in a name, if any. */
  function LastDot(name: string): (r: Option<nat>)
    ensures r.Some? ==> r.value < |name| && name[r.value] == '.'
    ensures r.Some? ==> forall k :: r.value < k < |name| ==> name[k] != '.'
    ensures r.None? ==> forall k :: 0 <= k < |name| ==> name[k] != '.'
  {
    if name == [] then None
    else if name[|name| - 1] == '.' then Some(|name| - 1)
    else LastDot(name[..|name| - 1])
  }

  /**
   * `Path::extension` of a file name: the text after the last `.`, unless there
   * is no dot, the only dot starts the name, or the name is `..`.
   */
  function Extension(name: string): (ext: Option<string>)
    ensures ext.Some? ==> exists i :: 0 < i < |name| && name[i] == '.' && ext.value == name[i + 1..]
    ensures ext.Some? ==> forall k :: |name| - |ext.value| <= k < |name| ==> name[k] != '.'
    ensures name != ".." && LastDot(name).Some? && LastDot(name).value > 0 ==>
      ext == Some(name[LastDot(name).value + 1..])
  {
    if name == ".." then None
    else match LastDot(name)
      case None => None
      case Some(i) => if i == 0 then None else Some(name[i + 1..])
  }

  /** Every file a save writes is one that the listing keeps. */
  lemma SessionFileIsJson(timestamp: string)
    ensures Extension(SessionFileName(timestamp)) == Some("json")
  {
    var name := SessionFileName(timestamp);
    var n := |name|;
    assert name[n - 5..] == ".json";
    assert name[n - 1] == 'n' && name[n - 2] == 'o' && name[n - 3] == 's' && name[n - 4] == 'j' && name[n - 5] == '.';
    assert name[..n - 1][..n - 2] == name[..n - 2];
    assert name[..n - 2][..n - 3] == name[..n - 3];
    assert name[..n - 3][..n - 4] == name[..n - 4];
    assert LastDot(name[..n - 4]) == Some(n - 5);
    assert LastDot(name) == Some(n - 5);
    assert name[n - 4..] == "json";
  }

  /**
   * Timestamps of one fixed width order their file names as they order
   * themselves, so the newest save sorts last by name.
   */
  lemma SessionNamesFollowTimestamps(t1: string, t2: string)
    requires |t1| == |t2|
    ensures LexLe(SessionFileName(t1), SessionFileName(t2)) <==> LexLe(t1, t2)
  {
    assert SessionFileName(t1) == "session_" + (t1 + ".json");
    assert SessionFileName(t2) == "session_" + (t2 + ".json");
    LexLePrefix("session_", t1 + ".json", t2 + ".json");
    LexLeSameLengthThen(t1, t2, ".json");
  }

  // ---------------------------------------------------------------------------
  // Listing saved sessions (`list_sessions`)

  /** The session directory as a listing sees it; `None` is an entry that failed to read. */
  datatype SessionDir = Missing | Unreadable | Listing(entries: seq<Option<string>>)

  datatype IoError = ReadDirFailed | EntryFailed(index: nat)

  predicate IsSessionFile(name: string) {
    Extension(name) == Some("json")
  }

  /** The names of the readable entries with extension `json`, in listing order. */
  function JsonNames(entries: seq<Option<string>>): (names: seq<string>)
    ensures |names| <= |entries|
    ensures forall k :: 0 <= k < |names| ==> IsSessionFile(names[k]) && Some(names[k]) in entries
  {
    if entries == [] then []
    else
      var init := entries[..|entries| - 1];
      var last := entries[|entries| - 1];
      assert forall e :: e in init ==> e in entries;
      JsonNames(init) + if last.Some? && IsSessionFile(last.value) then [last.value] else []
  }

  lemma JsonNamesStep(entries: seq<Option<string>>, i: nat)
    requires i < |entries|
    ensures JsonNames(entries[..i + 1]) == JsonNames(entries[..i])
      + if entries[i].Some? && IsSessionFile(entries[i].value) then [entries[i].value] else []
  {
    assert entries[..i + 1][..i] == entries[..i];
  }

  /** Each json entry of the listing is among its names. */
  lemma {:induction false} JsonNamesComplete(entries: seq<Option<string>>, k: nat)
    requires k < |entries| && entries[k].Some? && IsSessionFile(entries[k].value)
    ensures entries[k].value in JsonNames(entries)
  {
    var init := entries[..|entries| - 1];
    if k < |entries| - 1 {
      JsonNamesComplete(init, k);
    }
  }

  /** Newest first: every name sorts no later than the one before it. */
  predicate SortedDescending(names: seq<string>) {
    forall i, j :: 0 <= i < j < |names| ==> LexLe(names[j], names[i])
  }

  lemma InsertInFront(x: string, s: seq<string>)
    requires SortedDescending(s) && s != [] && LexLe(s[0], x)
    ensures SortedDescending([x] + s)
  {
    var r := [x] + s;
    forall i, j | 0 <= i < j < |r| ensures LexLe(r[j], r[i]) {
      if i == 0 {
        if j > 1 {
          LexLeTransitive(s[j - 1], s[0], x);
        }
      } else {
        assert r[i] == s[i - 1] && r[j] == s[j - 1];
      }
    }
  }

  lemma ConsAfter(y: string, t: seq<string>, s: seq<string>, x: string)
    requires SortedDescending(t) && SortedDescending([y] + s) && LexLe(x, y)
    requires multiset(t) == multiset(s) + multiset{x}
    ensures SortedDescending([y] + t)
  {
    var r := [y] + t;
    forall j | 0 < j < |r| ensures LexLe(r[j], y) {
      var e := t[j - 1];
      assert r[j] == e;
      assert e in multiset(t);
      if e != x {
        assert e in multiset(s);
        var k :| 0 <= k < |s| && s[k] == e;
        assert ([y] + s)[k + 1] == e && ([y] + s)[0] == y;
      }
    }
    forall i, j | 0 < i < j < |r| ensures LexLe(r[j], r[i]) {
      assert r[i] == t[i - 1] && r[j] == t[j - 1];
    }
  }

  /** One step of insertion sort: place `x` before the first name it does not precede. */
  function Insert(x: string, s: seq<string>): (r: seq<string>)
    requires SortedDescending(s)
    ensures SortedDescending(r) && multiset(r) == multiset(s) + multiset{x}
  {
    if s == [] then [x]
    else if LexLe(s[0], x) then
      InsertInFront(x, s);
      [x] + s
    else
      LexLeTotal(s[0], x);
      assert [s[0]] + s[1..] == s;
      var t := Insert(x, s[1..]);
      ConsAfter(s[0], t, s[1..], x);
      [s[0]] + t
  }

  /** `sort_by(|a, b| b.cmp(a))`: the names, greatest first. */
  function SortDescending(names: seq<string>): (r: seq<string>)
    ensures SortedDescending(r) && multiset(r) == multiset(names)
  {
    if names == [] then []
    else
      assert [names[0]] + names[1..] == names;
      Insert(names[0], SortDescending(names[1..]))
  }

  /** The paths of named entries of a directory. */
  function JoinAll(dir: string, names: seq<string>): (paths: seq<string>)
    ensures |paths| == |names| && forall k :: 0 <= k < |names| ==> paths[k] == JoinPath(dir, names[k])
  {
    seq(|names|, k requires 0 <= k < |names| => JoinPath(dir, names[k]))
  }

  /** The first entry that failed to read, if any. */
  function FirstError(entries: seq<Option<string>>): (r: Option<nat>)
    ensures r.Some? ==> r.value < |entries| && entries[r.value].None?
    ensures r.Some? ==> forall k :: 0 <= k < r.value ==> entries[k].Some?
    ensures r.None? <==> forall k :: 0 <= k < |entries| ==> entries[k].Some?
  {
    if entries == [] then None
    else if entries[0].None? then Some(0)
    else match FirstError(entries[1..])
      case None => None
      case Some(i) => Some(i + 1)
  }

  /**
   * `list_sessions`: no directory lists nothing; a directory or entry that cannot
   * be read is the error; otherwise the json files, greatest name first.
   */
  method ListSessions(dir: string, fs: SessionDir) returns (r: Result<seq<string>, IoError>)
    ensures fs.Missing? ==> r == Ok([])
    ensures fs.Unreadable? ==> r == Err(ReadDirFailed)
    ensures fs.Listing? && FirstError(fs.entries).Some? ==> r == Err(EntryFailed(FirstError(fs.entries).value))
    ensures fs.Listing? && FirstError(fs.entries).None? ==> r == Ok(JoinAll(dir, SortDescending(JsonNames(fs.entries))))
  {
    if fs.Missing? {
      return Ok([]);
    }
    if fs.Unreadable? {
      return Err(ReadDirFailed);
    }
    var entries := fs.entries;
    var sessions: seq<string> := [];
    for i := 0 to |entries|
      invariant sessions == JsonNames(entries[..i])
      invariant forall k :: 0 <= k < i ==> entries[k].Some?
    {
      JsonNamesStep(entries, i);
      if entries[i].None? {
        return Err(EntryFailed(i));
      }
      var name := entries[i].value;
      if Extension(name) == Some("json") {
        sessions := sessions + [name];
      }
    }
    assert entries[..|entries|] == entries;
    var sorted := SortDescending(sessions);
    return Ok(JoinAll(dir, sorted));
  }

  /**
   * A listing that succeeds holds exactly the json files, each once per entry,
   * with the greatest name first: the latest session when timestamps share one width.
   */
  lemma ListingIsSortedJsonFiles(entries: seq<Option<string>>)
    ensures var names := SortDescending(JsonNames(entries));
      && (forall k :: 0 <= k < |names| ==> IsSessionFile(names[k]))
      && (forall k :: 0 <= k < |entries| && entries[k].Some? && IsSessionFile(entries[k].value) ==> entries[k].value in names)
      && (forall k :: 0 <= k < |names| ==> LexLe(names[k], names[0]))
  {
    var json := JsonNames(entries);
    var names := SortDescending(json);
    SortedAreJson(json, names);
    JsonNamesListed(entries, names);
    FirstIsGreatest(names);
  }

  lemma FirstIsGreatest(names: seq<string>)
    requires SortedDescending(names)
    ensures forall k :: 0 <= k < |names| ==> LexLe(names[k], names[0])
  {
    if names != [] {
      LexLeReflexive(names[0]);
    }
  }

  lemma SortedAreJson(json: seq<string>, names: seq<string>)
    requires forall k :: 0 <= k < |json| ==> IsSessionFile(json[k])
    requires multiset(names) == multiset(json)
    ensures forall k :: 0 <= k < |names| ==> IsSessionFile(names[k])
  {
    forall k | 0 <= k < |names| ensures IsSessionFile(names[k]) {
      assert names[k] in multiset(json);
    }
  }

  lemma JsonNamesListed(entries: seq<Option<string>>, names: seq<string>)
    requires multiset(names) == multiset(JsonNames(entries))
    ensures forall k :: 0 <= k < |entries| && entries[k].Some? && IsSessionFile(entries[k].value) ==> entries[k].value in names
  {
    forall k | 0 <= k < |entries| && entries[k].Some? && IsSessionFile(entries[k].value)
      ensures entries[k].value in names
    {
      JsonNamesComplete(entries, k);
      assert entries[k].value in multiset(names);
    }
  }

  /** Saving and then listing: the new file is among the listed sessions. */
  lemma SavedSessionIsListed(dir: string, entries: seq<Option<string>>, timestamp: string)
    requires Some(SessionFileName(timestamp)) in entries
    ensures SessionPath(dir, timestamp) in JoinAll(dir, SortDescending(JsonNames(entries)))
  {
    var k :| 0 <= k < |entries| && entries[k] == Some(SessionFileName(timestamp));
    SessionFileIsJson(timestamp);
    ListingIsSortedJsonFiles(entries);
    var names := SortDescending(JsonNames(entries));
    var i :| 0 <= i < |names| && names[i] == SessionFileName(timestamp);
    assert JoinAll(dir, names)[i] == SessionPath(dir, timestamp);
  }
}

=== FILE: split.dfy ===
/**
 * Splitting a sequence at separators and dropping the empty pieces.
 *
 * This is Rust's `s.split(is_sep).filter(|p| !p.is_empty())`; `str::split_whitespace`
 * is the instance whose separators are the white-space characters, and the
 * `/proc/<pid>/cmdline` reader is the instance whose only separator is the NUL byte.
 */
module Split {

  /** A piece of a split: non-empty and free of separators. */
  predicate IsField<T(==)>(w: seq<T>, seps: set<T>) {
    |w| > 0 && forall i :: 0 <= i < |w| ==> w[i] !in seps
  }

  /** The length of the run of non-separators at the head of `s`. */
  function RunLength<T(==)>(s: seq<T>, seps: set<T>): (n: nat)
    ensures n <= |s|
    ensures forall i :: 0 <= i < n ==> s[i] !in seps
    ensures n < |s| ==> s[n] in seps
  {
    if s == [] || s[0] in seps then 0 else 1 + RunLength(s[1..], seps)
  }

  /** The maximal separator-free pieces of `s`, in order. */
  function Fields<T(==)>(s: seq<T>, seps: set<T>): (r: seq<seq<T>>)
    ensures forall k :: 0 <= k < |r| ==> IsField(r[k], seps)
    decreases |s|
  {
    if s == [] then []
    else if s[0] in seps then Fields(s[1..], seps)
    else
      var n := RunLength(s, seps);
      [s[..n]] + Fields(s[n..], seps)
  }

  /** The concatenation of all pieces. */
  function Flatten<T>(ws: seq<seq<T>>): seq<T> {
    if ws == [] then [] else ws[0] + Flatten(ws[1..])
  }

  /** The elements of `s` that are not separators, in order. */
  function Strip<T(==)>(s: seq<T>, seps: set<T>): (r: seq<T>)
    ensures forall i :: 0 <= i < |r| ==> r[i] !in seps
  {
    if s == [] then [] else (if s[0] in seps then [] else [s[0]]) + Strip(s[1..], seps)
  }

  /** The pieces written one after another with one `sep` between neighbours. */
  function Join<T>(ws: seq<seq<T>>, sep: T): seq<T> {
    if ws == [] then []
    else if |ws| == 1 then ws[0]
    else ws[0] + [sep] + Join(ws[1..], sep)
  }

  /** The pieces written one after another, each followed by `sep`. */
  function Terminated<T>(ws: seq<seq<T>>, sep: T): seq<T> {
    if ws == [] then [] else ws[0] + [sep] + Terminated(ws[1..], sep)
  }

  /** Where a left-to-right reading of `s` stands in `Squeeze`. */
  datatype Mode = Start | InPiece | Gap

  /**
   * `s` read left to right with every run of separators replaced by one `sep`
   * and the separators at both ends removed. `Start`: nothing kept yet;
   * `InPiece`: the last element read was kept; `Gap`: separators were read
   * after something was kept.
   */
  function Squeeze<T(==)>(s: seq<T>, seps: set<T>, sep: T, mode: Mode): seq<T> {
    if s == [] then []
    else if s[0] in seps then Squeeze(s[1..], seps, sep, if mode == Start then Start else Gap)
    else (if mode == Gap then [sep] else []) + [s[0]] + Squeeze(s[1..], seps, sep, InPiece)
  }

  lemma {:induction false} StripAppend<T>(a: seq<T>, b: seq<T>, seps: set<T>)
    ensures Strip(a + b, seps) == Strip(a, seps) + Strip(b, seps)
    decreases |a|
  {
    if a == [] {
      assert a + b == b;
    } else {
      var head := if a[0] in seps then [] else [a[0]];
      assert (a + b)[0] == a[0];
      assert (a + b)[1..] == a[1..] + b;
      assert Strip(a + b, seps) == head + Strip(a[1..] + b, seps);
      assert Strip(a, seps) == head + Strip(a[1..], seps);
      StripAppend(a[1..], b, seps);
    }
  }

  lemma {:induction false} StripField<T>(w: seq<T>, seps: set<T>)
    requires forall i :: 0 <= i < |w| ==> w[i] !in seps
    ensures Strip(w, seps) == w
  {
    if w != [] {
      StripField(w[1..], seps);
    }
  }

  /** Concatenating the pieces gives back `s` without its separators: nothing is lost or reordered. */
  lemma {:induction false} FlattenFields<T>(s: seq<T>, seps: set<T>)
    ensures Flatten(Fields(s, seps)) == Strip(s, seps)
    decreases |s|
  {
    if s == [] {
    } else if s[0] in seps {
      FlattenFields(s[1..], seps);
    } else {
      var n := RunLength(s, seps);
      assert s == s[..n] + s[n..];
      StripAppend(s[..n], s[n..], seps);
      StripField(s[..n], seps);
      FlattenFields(s[n..], seps);
      assert Fields(s, seps) == [s[..n]] + Fields(s[n..], seps);
      assert ([s[..n]] + Fields(s[n..], seps))[1..] == Fields(s[n..], seps);
    }
  }

  lemma {:induction false} RunLengthOfFieldThen<T>(w: seq<T>, rest: seq<T>, seps: set<T>)
    requires forall i :: 0 <= i < |w| ==> w[i] !in seps
    requires rest == [] || rest[0] in seps
    ensures RunLength(w + rest, seps) == |w|
  {
    if w != [] {
      assert (w + rest)[1..] == w[1..] + rest;
      RunLengthOfFieldThen(w[1..], rest, seps);
    }
  }

  /** A piece followed by a separator splits off as one field. */
  lemma {:induction false} FieldsOfFieldThen<T>(w: seq<T>, sep: T, rest: seq<T>, seps: set<T>)
    requires IsField(w, seps) && sep in seps
    ensures Fields(w + [sep] + rest, seps) == [w] + Fields(rest, seps)
  {
    var s := w + [sep] + rest;
    RunLengthOfFieldThen(w, [sep] + rest, seps);
    assert s == w + ([sep] + rest);
    assert s[..|w|] == w;
    assert s[|w|..] == [sep] + rest;
    assert ([sep] + rest)[1..] == rest;
  }

  lemma {:induction false} FieldsOfField<T>(w: seq<T>, seps: set<T>)
    requires IsField(w, seps)
    ensures Fields(w, seps) == [w]
  {
    RunLengthOfFieldThen(w, [], seps);
    assert w[..|w|] == w;
    assert w[|w|..] == [];
  }

  /** Round trip: splitting pieces joined by a separator gives the pieces back. */
  lemma {:induction false} FieldsOfJoin<T>(ws: seq<seq<T>>, sep: T, seps: set<T>)
    requires sep in seps
    requires forall k :: 0 <= k < |ws| ==> IsField(ws[k], seps)
    ensures Fields(Join(ws, sep), seps) == ws
  {
    if |ws| == 1 {
      FieldsOfField(ws[0], seps);
    } else if |ws| > 1 {
      FieldsOfFieldThen(ws[0], sep, Join(ws[1..], sep), seps);
      FieldsOfJoin(ws[1..], sep, seps);
    }
  }

  /** Round trip: splitting separator-terminated pieces gives the pieces back. */
  lemma {:induction false} FieldsOfTerminated<T>(ws: seq<seq<T>>, sep: T, seps: set<T>)
    requires sep in seps
    requires forall k :: 0 <= k < |ws| ==> IsField(ws[k], seps)
    ensures Fields(Terminated(ws, sep), seps) == ws
  {
    if ws != [] {
      FieldsOfFieldThen(ws[0], sep, Terminated(ws[1..], sep), seps);
      FieldsOfTerminated(ws[1..], sep, seps);
    }
  }

  lemma {:induction false} SqueezePiece<T>(s: seq<T>, seps: set<T>, sep: T, mode: Mode)
    requires s != [] && s[0] !in seps
    ensures var n := RunLength(s, seps);
      Squeeze(s, seps, sep, mode)
        == (if mode == Gap then [sep] else []) + s[..n] + Squeeze(s[n..], seps, sep, InPiece)
    decreases |s|
  {
    var n := RunLength(s, seps);
    var front := if mode == Gap then [sep] else [];
    var t := s[1..];
    assert Squeeze(s, seps, sep, mode) == front + [s[0]] + Squeeze(t, seps, sep, InPiece);
    if n > 1 {
      SqueezePiece(t, seps, sep, InPiece);
      assert RunLength(t, seps) == n - 1;
      assert t[..n - 1] == s[1..n];
      assert t[n - 1..] == s[n..];
      var x := Squeeze(s[n..], seps, sep, InPiece);
      assert Squeeze(t, seps, sep, InPiece) == s[1..n] + x;
      assert s[..n] == [s[0]] + s[1..n];
      Assoc(front, [s[0]], s[1..n], x);
    } else {
      assert s[..n] == [s[0]];
      assert s[n..] == t;
    }
  }

  lemma Assoc<T>(a: seq<T>, b: seq<T>, c: seq<T>, d: seq<T>)
    ensures a + b + (c + d) == a + (b + c) + d
  {
  }

  /**
   * Joining the pieces with single separators is `s` with its separator runs
   * collapsed and its ends trimmed (a `Gap` reading also puts one separator in front).
   */
  lemma {:induction false} JoinFieldsSqueeze<T>(s: seq<T>, seps: set<T>, sep: T, mode: Mode)
    requires mode != InPiece
    ensures Squeeze(s, seps, sep, mode)
      == (if mode == Gap && Fields(s, seps) != [] then [sep] else []) + Join(Fields(s, seps), sep)
    decreases |s|
  {
    if s == [] {
    } else if s[0] in seps {
      JoinFieldsSqueeze(s[1..], seps, sep, mode);
    } else {
      var n := RunLength(s, seps);
      SqueezePiece(s, seps, sep, mode);
      var rest := Fields(s[n..], seps);
      assert Fields(s, seps) == [s[..n]] + rest;
      if n == |s| {
        assert s[n..] == [];
      } else {
        var tail := s[n..];
        assert tail[0] in seps;
        assert Squeeze(tail, seps, sep, InPiece) == Squeeze(tail[1..], seps, sep, Gap);
        assert Fields(tail, seps) == Fields(tail[1..], seps);
        JoinFieldsSqueeze(tail[1..], seps, sep, Gap);
        if rest != [] {
          assert ([s[..n]] + rest)[1..] == rest;
        }
      }
    }
  }

  /** `Join` of the pieces, read as the collapsed and trimmed input. */
  lemma JoinFields<T>(s: seq<T>, seps: set<T>, sep: T)
    ensures Join(Fields(s, seps), sep) == Squeeze(s, seps, sep, Start)
  {
    JoinFieldsSqueeze(s, seps, sep, Start);
  }
}

=== FILE: text.dfy ===
/**
 * Character-level string helpers: ASCII lower-casing and the code-point order
 * in which Rust compares strings and paths.
 */
module Text {

  predicate IsAsciiUpper(c: char) {
    'A' <= c <= 'Z'
  }

  /** No ASCII capital letter occurs in `s`. */
  predicate IsLower(s: string) {
    forall i :: 0 <= i < |s| ==> !IsAsciiUpper(s[i])
  }

  function LowerChar(c: char): (d: char)
    ensures !IsAsciiUpper(d)
    ensures !IsAsciiUpper(c) ==> d == c
  {
    if IsAsciiUpper(c) then ((c as int) + 32) as char else c
  }

  /** `s` with every ASCII capital replaced by its small letter, all else kept. */
  function ToLower(s: string): (r: string)
    ensures |r| == |s|
    ensures forall i :: 0 <= i < |s| ==> r[i] == LowerChar(s[i])
    ensures IsLower(r)
  {
    if s == [] then [] else [LowerChar(s[0])] + ToLower(s[1..])
  }

  /** Lower-casing a lower-case string changes nothing. */
  lemma ToLowerOfLower(s: string)
    requires IsLower(s)
    ensures ToLower(s) == s
  {
  }

  /** `s` starts with `t`. */
  predicate StartsWith(s: string, t: string) {
    |t| <= |s| && s[..|t|] == t
  }

  /** `s` ends with `t`. */
  predicate EndsWith(s: string, t: string) {
    |t| <= |s| && s[|s| - |t|..] == t
  }

  lemma EndsWithAppend(s: string, t: string)
    ensures EndsWith(s + t, t)
  {
    assert (s + t)[|s|..] == t;
  }

  /** The middle of a three-part concatenation is recovered by slicing. */
  lemma Middle(a: string, m: string, b: string)
    ensures |a + m + b| == |a| + |m| + |b| && (a + m + b)[|a|..|a| + |m|] == m
  {
    assert (a + m + b)[|a|..|a| + |m|] == (a + m)[|a|..];
  }

  /** `a` sorts no later than `b` when compared code point by code point. */
  predicate LexLe(a: string, b: string) {
    if a == [] then true
    else if b == [] then false
    else if a[0] != b[0] then a[0] < b[0]
    else LexLe(a[1..], b[1..])
  }

  lemma {:induction false} LexLeTotal(a: string, b: string)
    ensures LexLe(a, b) || LexLe(b, a)
  {
    if a != [] && b != [] && a[0] == b[0] {
      LexLeTotal(a[1..], b[1..]);
    }
  }

  lemma {:induction false} LexLeAntisymmetric(a: string, b: string)
    requires LexLe(a, b) && LexLe(b, a)
    ensures a == b
  {
    if a != [] && b != [] {
      LexLeAntisymmetric(a[1..], b[1..]);
      assert a == [a[0]] + a[1..];
      assert b == [b[0]] + b[1..];
    }
  }

  lemma {:induction false} LexLeTransitive(a: string, b: string, c: string)
    requires LexLe(a, b) && LexLe(b, c)
    ensures LexLe(a, c)
  {
    if a != [] && b != [] && c != [] && a[0] == b[0] && b[0] == c[0] {
      LexLeTransitive(a[1..], b[1..], c[1..]);
    }
  }

  /** A common prefix does not affect the order. */
  lemma {:induction false} LexLePrefix(p: string, a: string, b: string)
    ensures LexLe(p + a, p + b) == LexLe(a, b)
  {
    if p != [] {
      assert (p + a)[1..] == p[1..] + a;
      assert (p + b)[1..] == p[1..] + b;
      LexLePrefix(p[1..], a, b);
    } else {
      assert p + a == a && p + b == b;
    }
  }

  /** A common suffix after equally long heads does not affect the order. */
  lemma {:induction false} LexLeSameLengthThen(a: string, b: string, x: string)
    requires |a| == |b|
    ensures LexLe(a + x, b + x) == LexLe(a, b)
  {
    if a == [] {
      assert b == [];
      assert a + x == x && b + x == x;
      LexLeReflexive(x);
    } else {
      assert (a + x)[0] == a[0] && (b + x)[0] == b[0];
      assert (a + x)[1..] == a[1..] + x;
      assert (b + x)[1..] == b[1..] + x;
      LexLeSameLengthThen(a[1..], b[1..], x);
    }
  }

  lemma {:induction false} LexLeReflexive(a: string)
    ensures LexLe(a, a)
  {
    if a != [] {
      LexLeReflexive(a[1..]);
    }
  }
}

=== FILE: wrappers.dfy ===
/** Option and Result, the shapes of Rust's `Option` and `Result` used across the model. */
module Wrappers {

  datatype Option<+T> = None | Some(value: T)

  datatype Result<+T, +E> = Ok(value: T) | Err(error: E)
}
